=== FILE: README.md ===
# HR attendance and leave: a Dafny model

This project models the core logic of a small HR web application. The front end keeps two
ledgers in its data context. The attendance ledger holds one clock-in/clock-out record per
employee and day. The leave ledger holds leave requests that an admin approves or rejects. The
pages read these ledgers:

- the dashboard shows the clock buttons, weekly hours and the admin's counts;
- the attendance page lists records by month or week, newest first;
- the leave page shows the request list, the apply form and the decision controls;
- the admin-only reports page shows monthly statistics, leave statistics and CSV export rows.

The session context restores the signed-in user from browser storage. On the server, the
`/register`, `/login`, `/me` and `/profile` handlers work on the user collection. A pre-save
hook on the product schema recomputes a product's average rating.

Everything is a pure function of explicit inputs:

- The ledgers are sequences.
- The clock (`now` and `today`) is a parameter.
- So are fresh record ids, and the database's or token signer's success or failure.
- JSON encoding and decoding of the stored user are function parameters.
- Hours are integer hundredths, the two decimals the code keeps.
- Averages and rates are reals.
- Dates are civil dates with a day count since 1970-01-01.

Modules follow the program's structure:

| module | file |
|---|---|
| `Calendar` | calendar.dfy |
| `Types` | types.dfy |
| `AttendanceLedger`, `LeaveLedger` | attendance_ledger.dfy, leave_ledger.dfy |
| `Dashboard`, `AttendanceView`, `LeaveView`, `Reports` | one file per page |
| `Session` | session.dfy |
| `UserStore`, `AuthRoutes`, `UserRoutes` | the server routes |
| `Product` | product.dfy |

`Seqs`, `Sorting`, `Directory` and `Wrappers` are shared helpers.

Behaviours of the code that a reader might not expect, which the model keeps:

- `applyLeave` validates nothing. A request that ends before it starts, or has an empty reason,
  is stored as pending.
- `approveLeave` and `rejectLeave` do not look at the current status. A decided request can be
  decided again, and the last decision wins.
- `clockOut` rewrites every record that carries the open record's id, not just that one record.
  With unique ids this is the same as updating that one record.
- The session is restored only when both stored entries are non-empty strings. A present but
  empty token does not restore it.
- `/register` saves the user before signing the token. A signing failure is answered with 500
  although the user is stored.
- The `/profile` reply carries the whole updated document, password included.
- The product hook divides by the number of reviews, so with no reviews the rating is NaN.

## Model

| member | source | states |
|---|---|---|
| Calendar.DaysInMonth | frontend/src/pages/Reports.tsx:36-37 | a month has 28 to 31 days; February has 29 exactly in leap years |
| Calendar.WeekStart | frontend/src/pages/Attendance.tsx:33-35 | the start of the week is a Sunday, at most six days before the date |
| Calendar.DayNumberOfNextMonth | frontend/src/pages/Reports.tsx:36-38 | the first of the next month is the first of this month plus this month's length |
| Calendar.LeapYearsStep | frontend/src/pages/Reports.tsx:36-37 | the leap-year count grows by one at year `y` exactly when `y` is a Gregorian leap year |
| Calendar.DayNumberOfNextYear | frontend/src/pages/Reports.tsx:36-38 | New Year's Day is the first of December plus 31 days |
| Calendar.DayNumberOfEpoch | frontend/src/pages/Reports.tsx:38-39 | day numbering puts 1970-01-01 at 0 and on a Thursday, the weekday `getDay()` reports for it |
| Calendar.DaysOfMonthAreConsecutive | frontend/src/pages/Reports.tsx:38 | the days of a month are consecutive day numbers from its first day, as `eachDayOfInterval` lists them |
| Calendar.WorkingDaysInMonthBounds | frontend/src/pages/Reports.tsx:36-39 | every month has between 20 and 23 weekdays, at least 8 weekend days fewer than its length, and a 28-day February has exactly 20 |
| Calendar.WorkingDaysFebruary2024 | frontend/src/pages/Attendance.tsx:66-71 | a concrete month: February 2024 has 21 working days |
| Calendar.MonthPrefixIffInMonth | frontend/src/pages/Reports.tsx:41-43 | `date.startsWith('yyyy-MM')` on a 'yyyy-MM-dd' string holds exactly when the date lies in that month |
| Types.ParseRole | frontend/src/types/index.ts:5 | a parsed role renders back to the same string, and every role's string parses |
| Types.ParseAttendanceStatus | frontend/src/types/index.ts:17 | a parsed status renders back to the same string, and every status's string parses |
| Types.ParseLeaveType | frontend/src/types/index.ts:23 | a parsed leave type renders back to the same string, and every leave type's string parses |
| Types.ParseLeaveStatus | frontend/src/types/index.ts:27 | a parsed leave status renders back to the same string, and every leave status's string parses |
| Types.EnumerationsRoundTrip | frontend/src/types/index.ts:5-27 | rendering any value of the four string unions and parsing the result gives the value back |
| Seqs.Filter | frontend/src/contexts/DataContext.tsx:198-200 | `Array.prototype.filter` keeps an element exactly when it is in the input and satisfies the predicate, and the result is no longer than the input |
| Seqs.FilterMultiset | frontend/src/contexts/DataContext.tsx:198-200 | `filter` keeps every passing element as many times as it occurs and drops the rest, so the result is a sub-multiset of the input |
| Seqs.FilterSnoc | frontend/src/contexts/DataContext.tsx:198-200 | an element appended to the input is appended to the result exactly when it passes, so `filter` keeps the input's order |
| Seqs.FilterAppend | frontend/src/pages/Reports.tsx:41-47 | filtering distributes over concatenation, which is what makes the ledger queries order-preserving |
| Seqs.FindFirst | frontend/src/contexts/DataContext.tsx:179-181 | `find` yields the first element that satisfies the predicate, and nothing exactly when none does |
| Directory.FindEmployee | frontend/src/pages/Reports.tsx:92 | `find` returns the first employee with the id, and nothing exactly when no employee has it |
| Directory.DisplayName | frontend/src/pages/Reports.tsx:92-94 | the name shown is never empty: the first matching employee's name when it is non-empty, and 'Unknown' when there is no match or the first match's name is empty |
| AttendanceLedger.FindIndex | frontend/src/contexts/DataContext.tsx:100-102 | the look-up finds the first record of the (user, day) key, and none exactly when the key has no record |
| AttendanceLedger.TodaysAttendance | frontend/src/contexts/DataContext.tsx:177-182 | today's record, if any, is in the ledger and belongs to the user and day; it is null exactly when the key has no record |
| AttendanceLedger.TodaysAttendanceIsFirstOfKey | frontend/src/contexts/DataContext.tsx:177-182 | the look-up is the head of the key's records, so it depends on those records only |
| AttendanceLedger.FindIndexSeesOnlyKeys | frontend/src/contexts/DataContext.tsx:121-123 | two ledgers that agree on every record's user and date give the same look-up index, whatever the other fields hold |
| AttendanceLedger.HundredthsBetween | frontend/src/contexts/DataContext.tsx:131-136 | the stored hours are the elapsed time rounded to the nearest hundredth of an hour, with halves rounded up |
| AttendanceLedger.NineToHalfPastFive | frontend/src/contexts/DataContext.tsx:21-30 | the sample record's 09:00 to 17:30 gives 8.50 hours |
| AttendanceLedger.ClockIn | frontend/src/contexts/DataContext.tsx:98-117 | no change once the day's record has a clock-in; otherwise the key's old records go, a fresh present record clocked in now is appended, the records of every other key are kept in their order, and the length changes accordingly |
| AttendanceLedger.FilterCountsSplit | frontend/src/contexts/DataContext.tsx:116 | the records kept by the clock-in filter and the removed records of the key together make up the ledger |
| AttendanceLedger.ClockInRecordsFor | frontend/src/contexts/DataContext.tsx:108-116 | after a real clock-in the day's key holds exactly the new record, and every other key holds what it held before, in order |
| AttendanceLedger.ClockInTwiceKeepsFirst | frontend/src/contexts/DataContext.tsx:104-106 | a second clock-in on the same day is a no-op, so the first clock-in time stays |
| AttendanceLedger.ReplaceById | frontend/src/contexts/DataContext.tsx:139-143 | every record whose id matches becomes the updated record, and every other position is unchanged |
| AttendanceLedger.ClockOut | frontend/src/contexts/DataContext.tsx:119-144 | no change unless today's record is open; otherwise it gets the clock-out instant and the rounded elapsed hours, every other record carrying the same id becomes that same closed record, and records with other ids are unchanged |
| AttendanceLedger.ClockInPreservesWellFormed | frontend/src/contexts/DataContext.tsx:98-117 | a clock-in with a fresh id keeps ids unique, keeps at most one record per (user, day), and keeps every record consistent (clock-out only after clock-in, hours exactly when clocked out) |
| AttendanceLedger.ReplaceByIdIsUpdate | frontend/src/contexts/DataContext.tsx:139-143 | with unique ids, replacing by an existing record's id is an update of that single position |
| AttendanceLedger.ClockOutIsUpdate | frontend/src/contexts/DataContext.tsx:129-143 | with unique ids, a clock-out updates only the position of today's record |
| AttendanceLedger.ClockOutPreservesWellFormed | frontend/src/contexts/DataContext.tsx:119-144 | a clock-out keeps the ledger well formed |
| AttendanceLedger.ClockInTransition | frontend/src/contexts/DataContext.tsx:104-116 | clock-in takes the day from no record (or no clock-in) to clocked in at now; every other state and every other key is unchanged |
| AttendanceLedger.ClockOutLookup | frontend/src/contexts/DataContext.tsx:121-143 | after a real clock-out, the day's look-up finds the closed record and every other look-up is unchanged |
| AttendanceLedger.ClockOutTransition | frontend/src/contexts/DataContext.tsx:119-144 | clock-out takes the day from clocked in to clocked out at now and keeps the clock-in time; every other state and key is unchanged |
| AttendanceLedger.StepKeepsLifecycle | frontend/src/contexts/DataContext.tsx:98-144 | one button press keeps the ledger well formed, never changes a clock-in time once set, and never reopens a clocked-out day |
| AttendanceLedger.RunKeepsLifecycle | frontend/src/contexts/DataContext.tsx:98-144 | any sequence of clock-ins (with fresh ids) and clock-outs keeps the ledger well formed, every set clock-in time, and every clocked-out day |
| AttendanceLedger.SumHoursAppend | frontend/src/contexts/DataContext.tsx:194 | the hours total of two record lists joined together is the sum of their totals |
| AttendanceLedger.WeeklyHoursUpdate | frontend/src/contexts/DataContext.tsx:184-195 | rewriting one of the week's records into another of the week's records changes the weekly hours by the difference of their hours |
| AttendanceLedger.WeeklyHoursSnoc | frontend/src/contexts/DataContext.tsx:184-195 | weekly hours are 0 on an empty ledger, and an appended record adds its hours exactly when it is the user's and dated from Sunday up to today |
| AttendanceLedger.MonthlyAttendance | frontend/src/contexts/DataContext.tsx:197-201 | a record is returned exactly when it is in the ledger, is the user's and is dated in the month, and as many times as the ledger holds it |
| AttendanceLedger.MonthlyAttendanceSnoc | frontend/src/contexts/DataContext.tsx:197-201 | the empty ledger gives no records, and an appended record is appended to the result exactly when it is the user's and in the month, so the result keeps ledger order |
| AttendanceLedger.MonthlyAttendanceIsMonthThenUser | frontend/src/contexts/DataContext.tsx:197-201 | the monthly list is the same sequence whether the ledger is filtered by month first or by user first |
| LeaveLedger.ApplyLeave | frontend/src/contexts/DataContext.tsx:146-155 | the old requests are kept and one new pending request is appended, with the form's fields, the fresh id, applied now and no decision fields |
| LeaveLedger.Decide | frontend/src/contexts/DataContext.tsx:157-175 | every request with the id gets the status, the approver and the date; every other request is unchanged |
| LeaveLedger.ApproveLeave | frontend/src/contexts/DataContext.tsx:157-165 | requests with the id become approved by the approver at now; the rest are unchanged |
| LeaveLedger.RejectLeave | frontend/src/contexts/DataContext.tsx:167-175 | requests with the id become rejected by the approver at now; the rest are unchanged |
| LeaveLedger.DecideUnknownIdIsNoOp | frontend/src/contexts/DataContext.tsx:157-175 | a decision on an unknown id leaves the ledger unchanged, and no decision changes any field except status, approver and date |
| LeaveLedger.DecisionsAreNotFinal | frontend/src/contexts/DataContext.tsx:157-175 | rejecting an approved request overwrites the approval: the last decision wins |
| LeaveLedger.ApplyLeaveDoesNotValidate | frontend/src/contexts/DataContext.tsx:146-155 | a request ending before it starts, with an empty reason, is stored as pending |
| LeaveLedger.LeaveOperationsKeepDecisionFields | frontend/src/contexts/DataContext.tsx:146-175 | apply, approve and reject keep the rule that approver and date are absent exactly while a request is pending |
| LeaveLedger.DecideKeepsOthers | frontend/src/contexts/DataContext.tsx:157-175 | taken as a sequence, the requests with other ids are the same before and after a decision |
| Reports.ReportAccess | frontend/src/pages/Reports.tsx:23-33 | the report is shown exactly to a signed-in admin; everyone else gets the access-denied panel |
| Reports.SelectedRecordsIsOneFilter | frontend/src/pages/Reports.tsx:41-47 | the month filter followed by the optional employee filter is one filter by "in the month and, if an employee is selected, theirs" |
| Reports.AverageHours | frontend/src/pages/Reports.tsx:51 | the average times the present days equals the total hours; it is 0 with no present day and 0 with no working day |
| Reports.AttendanceRate | frontend/src/pages/Reports.tsx:58 | the rate times the working days equals 100 times the present days; it is 0 with no present day and 0 with no working day |
| Reports.GetMonthlyStats | frontend/src/pages/Reports.tsx:35-60 | working days are the selected month's weekdays (20 to 23), as the page computes them east of UTC; present days count the selected records whatever their status; total hours are their hours; the average and rate are the means above |
| Reports.MonthlyStatsOfEmptySelection | frontend/src/pages/Reports.tsx:49-58 | with no records, present days, hours, average and rate are all 0 |
| Reports.MonthlyStatsSnoc | frontend/src/pages/Reports.tsx:49-50 | an appended record adds one present day and its hours exactly when it is in the selected month and employee |
| Reports.StatusCountsPartition | frontend/src/pages/Reports.tsx:71-74 | approved, pending and rejected counts add up to the number of requests |
| Reports.GetLeaveStats | frontend/src/pages/Reports.tsx:62-82 | the total counts requests starting or ending in the month (and the selected employee's); the three status counts are their status counts and add up to the total |
| Reports.LeaveSpanningTheMonthIsNotCounted | frontend/src/pages/Reports.tsx:63-65 | a leave from 2023-12-31 to 2024-02-01 is not counted for January 2024 |
| Reports.Rows | frontend/src/pages/Reports.tsx:91-100 | one row per record, in order, each built from its own record |
| Reports.CsvRows | frontend/src/pages/Reports.tsx:87-101 | one row per record of the month, in ledger order, with its date, status, hours (0 when missing), display name, and clock cells that hold the record's clock-in and clock-out instants, with '--' exactly for missing ones |
| Reports.CsvIgnoresEmployeeFilter | frontend/src/pages/Reports.tsx:89-90 | the export has at least as many rows as the statistics' present days, and exactly as many when no employee is selected |
| Sorting.InsertDesc | frontend/src/pages/Attendance.tsx:42 | inserting one element adds exactly that element to the multiset |
| Sorting.InsertDescKeepsOrder | frontend/src/pages/Attendance.tsx:42 | inserting into a newest-first list keeps it newest first |
| Sorting.SortDesc | frontend/src/pages/Attendance.tsx:42 | the sorted list is newest first and a permutation of the input |
| Sorting.InsertDescIsStable | frontend/src/pages/Attendance.tsx:42 | insertion puts the element before the elements with the same key; the sort inserts each element into the sorted rest of the input, so equal keys keep their input order |
| Sorting.SortDescIsStable | frontend/src/pages/Attendance.tsx:42 | the sort is stable: the elements with any one key appear in their original order |
| Sorting.SortDescKeepsElements | frontend/src/pages/Attendance.tsx:42 | the sorted list holds exactly the input's elements |
| AttendanceView.DefaultEmployeeFilter | frontend/src/pages/Attendance.tsx:11 | an admin starts with every employee selected; anyone else starts with their own id; nobody signed in starts with '' |
| AttendanceView.InsertDescAddsHours | frontend/src/pages/Attendance.tsx:62-64 | inserting a record adds its hours to the total |
| AttendanceView.SortKeepsHours | frontend/src/pages/Attendance.tsx:62-64 | sorting does not change the hours total |
| AttendanceView.FilterRecords | frontend/src/pages/Attendance.tsx:23-43 | the list is newest first and a permutation of the selected records; a record is listed exactly when it is the selected employee's (or any, with none selected) and inside the month or the Sunday-to-Saturday week; records of the same day keep their ledger order |
| AttendanceView.TotalHours | frontend/src/pages/Attendance.tsx:62-64 | the total is the hours of the selected records, independent of the display order |
| AttendanceView.PresentDays | frontend/src/pages/Attendance.tsx:156 | 'Present Days' counts every selected record whatever its status |
| AttendanceView.EmployeeSeesOwnRecords | frontend/src/pages/Attendance.tsx:11-28 | an employee under the initial filter sees only their own records |
| AttendanceView.MonthViewIsMonthlyAttendance | frontend/src/pages/Attendance.tsx:30-31 | for a selected employee the month view shows the same records as the data context's monthly query, reordered |
| Dashboard.CanClockIn | frontend/src/pages/Dashboard.tsx:34 | clock-in is enabled exactly when today's record is missing or has no clock-in |
| Dashboard.CanClockOut | frontend/src/pages/Dashboard.tsx:35 | clock-out is enabled exactly when today's record exists with a clock-in and no clock-out |
| Dashboard.ButtonsExclusive | frontend/src/pages/Dashboard.tsx:34-35 | the two clock buttons are never enabled together |
| Dashboard.HandleClockIn | frontend/src/pages/Dashboard.tsx:22-26 | without a signed-in id nothing happens; otherwise it is the ledger's clock-in for that id |
| Dashboard.HandleClockOut | frontend/src/pages/Dashboard.tsx:28-32 | without a signed-in id nothing happens; otherwise it is the ledger's clock-out for that id |
| Dashboard.ClockInNoOpMeansClockedIn | frontend/src/contexts/DataContext.tsx:104-116 | if clocking in leaves the ledger unchanged, the user had already clocked in that day |
| Dashboard.ClockInButtonMatchesEffect | frontend/src/pages/Dashboard.tsx:34 | for a signed-in user, the clock-in button is enabled exactly when pressing it changes the ledger |
| Dashboard.ClockOutButtonMatchesEffect | frontend/src/pages/Dashboard.tsx:35 | for a signed-in user, the clock-out button is enabled exactly when pressing it changes the ledger |
| Dashboard.WeeklyHoursShown | frontend/src/pages/Dashboard.tsx:19 | the tile shows 0 when the signed-in id ('' when signed out) has no record from this week's Sunday up to today |
| Dashboard.ClockOutRaisesWeeklyHours | frontend/src/pages/Dashboard.tsx:19-32 | on a well-formed ledger, pressing 'Clock Out' raises the tile by exactly the rounded elapsed time of today's record |
| Dashboard.PendingLeaves | frontend/src/pages/Dashboard.tsx:39 | an admin sees the number of pending requests, at most the number of requests; anyone else sees 0 |
| Dashboard.ApplyLeaveRaisesPending | frontend/src/pages/Dashboard.tsx:39 | a new request raises the admin's pending count by one |
| Dashboard.ApproveLowersPending | frontend/src/pages/Dashboard.tsx:39 | approving a pending request with a unique id lowers the pending count by one |
| Dashboard.TodayAttendance | frontend/src/pages/Dashboard.tsx:40-42 | an admin sees the number of records dated today; anyone else sees 0 |
| Dashboard.FirstClockInRaisesTodayAttendance | frontend/src/pages/Dashboard.tsx:40-42 | the day's first clock-in raises the admin's today count by one |
| LeaveView.VisibleLeaves | frontend/src/pages/Leave.tsx:79-81 | an admin sees every request; an employee sees exactly their own, each as often as the ledger holds it; nobody signed in sees none |
| LeaveView.VisibleLeavesSnoc | frontend/src/pages/Leave.tsx:79-81 | the empty ledger shows nothing, and an appended request is appended to the list exactly when the user may see it, so the list keeps ledger order |
| LeaveView.CanApplyForLeave | frontend/src/pages/Leave.tsx:103-111 | the apply button is offered exactly when the user is not an admin |
| LeaveView.ShowDecisionControls | frontend/src/pages/Leave.tsx:265-283 | approve and reject appear exactly for an admin on a pending request |
| LeaveView.EmployeeName | frontend/src/pages/Leave.tsx:84-92 | an admin sees the directory name; anyone else sees 'Unknown' for every request |
| LeaveView.HandleSubmit | frontend/src/pages/Leave.tsx:20-35 | a complete form from a signed-in user applies for the leave and resets and hides the form; otherwise nothing changes |
| LeaveView.SubmittedRequestIsVisible | frontend/src/pages/Leave.tsx:20-35 | after an employee submits, their list is the old list plus the new pending request at its end |
| LeaveView.HandleApprove | frontend/src/pages/Leave.tsx:37-41 | approves in the signed-in user's name; nothing happens when signed out |
| LeaveView.HandleReject | frontend/src/pages/Leave.tsx:43-47 | rejects in the signed-in user's name; nothing happens when signed out |
| LeaveView.ApproveThroughPage | frontend/src/pages/Leave.tsx:265-283 | an admin's approval records the admin and the time, removes the request's controls, and leaves requests with other ids alone |
| LeaveView.RejectThroughPage | frontend/src/pages/Leave.tsx:265-283 | an admin's rejection records the admin and the time, removes the request's controls, and leaves requests with other ids alone |
| Session.Bootstrap | frontend/src/contexts/AuthContext.tsx:12-20 | a user is restored, parsed from storage, exactly when both the token and the user entry are non-empty; otherwise nobody is signed in; storage is untouched |
| Session.Authenticate | frontend/src/contexts/AuthContext.tsx:65-83 | true exactly on a successful reply, which signs the user in and stores the token and the user's JSON without touching other entries; otherwise nothing changes |
| Session.Login | frontend/src/contexts/AuthContext.tsx:55-84 | resolves true exactly on a successful reply, and then signs the user in and stores both entries; on a failed or thrown request the session is unchanged |
| Session.Register | frontend/src/contexts/AuthContext.tsx:22-53 | the same outcome as a login for the reply received |
| Session.Logout | frontend/src/contexts/AuthContext.tsx:86-91 | nobody is signed in and exactly the two session entries are removed from storage |
| Session.LogoutIsIdempotent | frontend/src/contexts/AuthContext.tsx:86-91 | logging out twice is the same as once |
| Session.ReloadAfterLogoutIsSignedOut | frontend/src/contexts/AuthContext.tsx:86-91 | after a logout, a reload restores nobody |
| Session.ReloadAfterLoginRestoresUser | frontend/src/contexts/AuthContext.tsx:72-78 | after a login with a non-empty token whose user JSON parses back, a reload restores the same session |
| Session.EmptyTokenIsNotRestored | frontend/src/contexts/AuthContext.tsx:16 | a login whose token is empty signs the user in, but a reload restores nobody |
| UserStore.FindByEmail | backend/src/routes/auth.js:21 | the first user with the email, and nothing exactly when no user has it |
| UserStore.FindById | backend/src/routes/users.js:9 | the first user with the id, and nothing exactly when no user has it |
| UserStore.WithoutPassword | backend/src/routes/users.js:9 | the public form keeps every field but the password |
| AuthRoutes.Register | backend/src/routes/auth.js:7-63 | in order: 400 on a missing field, 400 on a taken email, 500 with nothing stored on a failed save; otherwise the user is stored, and the reply is 201 with the token and the public user, or 500 on a failed signing |
| AuthRoutes.RegisterOutcomes | backend/src/routes/auth.js:29-55 | the collection is unchanged or gains one user with the body's email; the reply succeeds (201) exactly when every field is given, the email is new, and saving and signing work |
| AuthRoutes.RegisterChecksFieldsFirst | backend/src/routes/auth.js:14-27 | a missing field is reported even when the email is already taken |
| AuthRoutes.RegisterKeepsEmailsUnique | backend/src/routes/auth.js:21-38 | registration keeps every email unique in the collection |
| AuthRoutes.Login | backend/src/routes/auth.js:66-106 | 400 without both credentials; 401 for an unknown email or a password that does not match; otherwise 200 with the token and the user's id, name, email and role, or 500 on a failed signing |
| AuthRoutes.LoginHidesWhichCheckFailed | backend/src/routes/auth.js:77-83 | an unknown email and a wrong password get identical replies |
| AuthRoutes.RegisterThenLogin | backend/src/routes/auth.js:29-98 | a user who has just registered can log in with the same credentials, and the login names the stored user |
| UserRoutes.Me | backend/src/routes/users.js:7-26 | 404 for an unknown id; otherwise 200 with that user, password removed |
| UserRoutes.IsValidOperation | backend/src/routes/users.js:31-33 | an update is accepted exactly when every key is 'name' or 'email', so an empty update is accepted |
| UserRoutes.UpdateProfile | backend/src/routes/users.js:29-65 | 400 for a key outside the whitelist, 400 with its message for an update error, 404 for an unknown user; it succeeds (200) exactly when none applies, and a failure stores nothing |
| UserRoutes.UpdateChangesOnlySuppliedFields | backend/src/routes/users.js:42-58 | a successful update changes only the caller's supplied name or email, keeps every other user and field, and replies with the whole updated document |
| UserRoutes.EmptyUpdateKeepsStore | backend/src/routes/users.js:31-46 | an empty update succeeds and changes nothing |
| UserRoutes.MeSeesUpdate | backend/src/routes/users.js:7-58 | after an update, `/me` returns the updated user without the password |
| Product.Create | backend/src/models/Product.js:32-45 | omitted stock, ratings and review count default to 0 and given ones are kept; name, description, price, category, images and reviews (each with its own `createdAt`) are kept; the creation time is the given one, or the clock's when omitted |
| Product.DefaultsAreValid | backend/src/models/Product.js:3-73 | an input valid in its given fields gives a document that passes the schema's validators |
| Product.Average | backend/src/models/Product.js:79-80 | NaN exactly when there are no reviews; otherwise the average times the count is the rating sum |
| Product.PreSave | backend/src/models/Product.js:76-83 | with reviews unmodified nothing changes; otherwise the count is the number of reviews, the rating is their mean (NaN when there are none), and no other field changes |
| Product.PreSaveIsIdempotent | backend/src/models/Product.js:76-83 | saving again after a recomputation changes nothing |
| Product.SumRatingsBounds | backend/src/models/Product.js:79 | if every rating is within a range, the sum is within count times that range |
| Product.AverageWithinRange | backend/src/models/Product.js:79-80 | the recomputed rating lies within the range of the review ratings |
| Product.AddReviewThenSave | backend/src/models/Product.js:76-83 | adding a review and saving counts it and adds its rating to the sum the mean stands for |

## Left out

- Time zones are not modelled. The code parses 'yyyy-MM-dd' strings as UTC midnight and compares
  them with local-time instants. The model works in whole days, with `today` as an input.
  The selected month is parsed the same way (`new Date(selectedMonth)` is UTC midnight) while
  `startOfMonth`/`endOfMonth` work in local time, so west of UTC the code counts the previous
  month's working days and rate; the model counts the selected month's.
- The week's start is modelled as a day. `getWeeklyHours` keeps the current time of day in its
  start-of-week instant, so a record dated that Sunday may fall outside the range in the code.
- Display formatting is left out: `format(..., 'HH:mm')`, `toFixed` and the date labels. Clock
  cells keep the instant.
- Floating point is not modelled. Hours are exact hundredths, and averages and rates are exact
  reals.
- Browser storage effects are not modelled: loading and saving the ledgers to local storage,
  and JSON of the ledgers. The ledgers are values.
- JSON parsing of the stored user is a total function parameter. A `JSON.parse` that throws
  during bootstrap is not modelled.
- `fetch`, `jwt.sign`, password comparison and database saves and updates are not modelled.
  Their outcomes are parameters.
- Database errors thrown by `findOne` and `findById` are not modelled. Only the save error and
  the update error are.
- models/User.js is not part of this model: its schema, password hashing and unique index.
  The authentication middleware is not part of it either.
- The hard-coded employee lists of the pages are not modelled; the directory is a parameter.
- The mock constant `totalEmployees` (3) on the dashboard is not modelled.
- The seed data is not modelled, apart from the hours of its first record.
- Record ids from `Date.now()` are inputs, so clashes between them are not modelled. The
  well-formedness lemmas require a fresh id.
- Concurrent state updates are not modelled; each call sees the ledger it is given.
- An empty month input on the reports and attendance pages is not modelled. The model's month is
  always a valid year and month.
- Request bodies are modelled as strings only. Non-string JSON values are not modelled.
- Mongoose's `trim` on the product name is not modelled.
- Storing a NaN rating is not modelled beyond producing the NaN value.
- Colours, icons and layout are left out.
- Session.Login: the e-mail and password are not modelled, because they only reach the server.

=== FILE: attendance_ledger.dfy ===
/** The attendance ledger of the front end's data context: the clock-in/clock-out lifecycle of one
    record per (user, day), and the read queries over the ledger. The ledger is a value; every
    mutator maps the ledger and the clock to the next ledger. */
module AttendanceLedger {
  import opened Wrappers
  import opened Seqs
  import opened Calendar
  import opened Types

  type Ledger = seq<AttendanceRecord>

  /** What the browser clock supplies to one call: the instant `new Date()` and the local day
      `format(new Date(), 'yyyy-MM-dd')`. */
  datatype Clock = Clock(now: Instant, today: Date)

  /** The record belongs to user `u` on day `d`. */
  predicate IsFor(r: AttendanceRecord, u: UserId, d: Date) {
    r.userId == u && r.date == d
  }

  function KeyMatch(u: UserId, d: Date): AttendanceRecord -> bool {
    r => IsFor(r, u, d)
  }

  function OtherKey(u: UserId, d: Date): AttendanceRecord -> bool {
    r => !IsFor(r, u, d)
  }

  /** All records of user `u` on day `d`, in ledger order. */
  function RecordsFor(L: Ledger, u: UserId, d: Date): seq<AttendanceRecord> {
    Filter(L, KeyMatch(u, d))
  }

  // ---------------------------------------------------------------------------------------
  // Lookup (`attendanceRecords.find(record => record.userId === userId && record.date === today)`)

  /** Index of the first record of (`u`, `d`), if any. */
  function FindIndex(L: Ledger, u: UserId, d: Date): (r: Option<nat>)
    ensures r.Some? ==> r.value < |L| && IsFor(L[r.value], u, d)
    ensures r.Some? ==> forall j :: 0 <= j < r.value ==> !IsFor(L[j], u, d)
    ensures r.None? <==> forall j :: 0 <= j < |L| ==> !IsFor(L[j], u, d)
  {
    FindFirst(L, KeyMatch(u, d))
  }

  /** `getTodaysAttendance`: the first record of the user for the given day, or none. */
  function TodaysAttendance(L: Ledger, u: UserId, today: Date): (r: Option<AttendanceRecord>)
    ensures r.Some? ==> r.value in L && IsFor(r.value, u, today)
    ensures r.None? <==> forall j :: 0 <= j < |L| ==> !IsFor(L[j], u, today)
  {
    match FindIndex(L, u, today)
    case None => None
    case Some(i) => Some(L[i])
  }

  /** The lookup returns the head of the records of that key, so it depends only on them. */
  lemma {:induction false} TodaysAttendanceIsFirstOfKey(L: Ledger, u: UserId, d: Date)
    ensures TodaysAttendance(L, u, d) ==
      (if |RecordsFor(L, u, d)| == 0 then None else Some(RecordsFor(L, u, d)[0]))
  {
    if |L| > 0 {
      TodaysAttendanceIsFirstOfKey(L[1..], u, d);
    }
  }

  /** A ledger whose records carry, position by position, the same keys has the same lookups. */
  lemma {:induction false} FindIndexSeesOnlyKeys(L: Ledger, M: Ledger, u: UserId, d: Date)
    requires |L| == |M|
    requires forall j :: 0 <= j < |L| ==> L[j].userId == M[j].userId && L[j].date == M[j].date
    ensures FindIndex(L, u, d) == FindIndex(M, u, d)
  {
    if |L| > 0 {
      FindIndexSeesOnlyKeys(L[1..], M[1..], u, d);
    }
  }

  // ---------------------------------------------------------------------------------------
  // Elapsed time

  /** `Math.round(ms / 3600000 * 100)`: elapsed milliseconds in hundredths of an hour, rounded
      half up. The result is the unique integer within half a hundredth of the exact value. */
  function HundredthsBetween(start: Instant, end: Instant): (h: Hundredths)
    ensures 36000 * h - 18000 <= end - start < 36000 * h + 18000
  {
    (end - start + 18000) / 36000
  }

  /** The sample record clocked in at 09:00 and out at 17:30 holds 8.50 hours. */
  lemma NineToHalfPastFive(t: Instant)
    ensures HundredthsBetween(t, t + 30600000) == 850
  {
  }

  // ---------------------------------------------------------------------------------------
  // Clock in

  /** The user already has a clock-in for the day: `existingRecord && existingRecord.clockIn`. */
  predicate HasClockedIn(L: Ledger, u: UserId, d: Date) {
    var e := TodaysAttendance(L, u, d);
    e.Some? && e.value.clockIn.Some?
  }

  function NewRecord(u: UserId, c: Clock, freshId: RecordId): AttendanceRecord {
    AttendanceRecord(freshId, u, Some(c.now), None, c.today, None, Present)
  }

  /** `clockIn(userId)`: a no-op when the day's record already has a clock-in; otherwise every
      record of (user, today) is dropped and one fresh record is appended. The records of every
      other key survive in their original order. */
  function ClockIn(L: Ledger, u: UserId, c: Clock, freshId: RecordId): (L': Ledger)
    ensures HasClockedIn(L, u, c.today) ==> L' == L
    ensures !HasClockedIn(L, u, c.today) ==>
      |L'| > 0 && L'[|L'| - 1] == NewRecord(u, c, freshId) &&
      |L'| == |L| + 1 - |RecordsFor(L, u, c.today)|
    ensures !HasClockedIn(L, u, c.today) ==>
      Filter(L', OtherKey(u, c.today)) == Filter(L, OtherKey(u, c.today))
  {
    if HasClockedIn(L, u, c.today) then L
    else
      var kept := Filter(L, OtherKey(u, c.today));
      assert |kept| == |L| - |RecordsFor(L, u, c.today)| by {
        FilterCountsSplit(L, u, c.today);
      }
      assert Filter(kept + [NewRecord(u, c, freshId)], OtherKey(u, c.today)) == kept by {
        FilterSnoc(kept, NewRecord(u, c, freshId), OtherKey(u, c.today));
        FilterIdempotent(L, OtherKey(u, c.today));
      }
      kept + [NewRecord(u, c, freshId)]
  }

  lemma {:induction false} FilterCountsSplit(L: Ledger, u: UserId, d: Date)
    ensures |Filter(L, OtherKey(u, d))| + |RecordsFor(L, u, d)| == |L|
  {
    if |L| > 0 {
      FilterCountsSplit(L[1..], u, d);
    }
  }

  /** After a clock-in that is not a no-op, the day's key holds exactly the new record, and every
      other key holds exactly the records, in the order, it held before. */
  lemma ClockInRecordsFor(L: Ledger, u: UserId, c: Clock, freshId: RecordId, u2: UserId, d2: Date)
    requires !HasClockedIn(L, u, c.today)
    ensures RecordsFor(ClockIn(L, u, c, freshId), u2, d2) ==
      if u2 == u && d2 == c.today then [NewRecord(u, c, freshId)] else RecordsFor(L, u2, d2)
  {
    var kept := Filter(L, OtherKey(u, c.today));
    var nr := NewRecord(u, c, freshId);
    FilterSnoc(kept, nr, KeyMatch(u2, d2));
    if u2 == u && d2 == c.today {
      FilterKeepsNone(kept, KeyMatch(u2, d2));
    } else {
      FilterNarrow(L, OtherKey(u, c.today), KeyMatch(u2, d2));
    }
  }

  /** A second clock-in on the same day changes nothing: the first clock-in time stays. */
  lemma ClockInTwiceKeepsFirst(L: Ledger, u: UserId, c1: Clock, c2: Clock, id1: RecordId, id2: RecordId)
    requires c1.today == c2.today
    ensures ClockIn(ClockIn(L, u, c1, id1), u, c2, id2) == ClockIn(L, u, c1, id1)
    ensures TodaysAttendance(ClockIn(L, u, c1, id1), u, c1.today).Some?
  {
    if !HasClockedIn(L, u, c1.today) {
      ClockInRecordsFor(L, u, c1, id1, u, c1.today);
      TodaysAttendanceIsFirstOfKey(ClockIn(L, u, c1, id1), u, c1.today);
    }
  }

  // ---------------------------------------------------------------------------------------
  // Clock out

  /** The day's record exists, has a clock-in and has no clock-out. */
  predicate CanClose(L: Ledger, u: UserId, d: Date) {
    var e := TodaysAttendance(L, u, d);
    e.Some? && e.value.clockIn.Some? && e.value.clockOut.None?
  }

  function ClosedRecord(e: AttendanceRecord, now: Instant): AttendanceRecord
    requires e.clockIn.Some?
  {
    e.(clockOut := Some(now), totalHours := Some(HundredthsBetween(e.clockIn.value, now)))
  }

  /** `prev.map(record => record.id === id ? rec : record)`. */
  function ReplaceById(L: Ledger, id: RecordId, rec: AttendanceRecord): (L': Ledger)
    ensures |L'| == |L|
    ensures forall j :: 0 <= j < |L| ==> L'[j] == if L[j].id == id then rec else L[j]
  {
    if |L| == 0 then []
    else [if L[0].id == id then rec else L[0]] + ReplaceById(L[1..], id, rec)
  }

  /** `clockOut(userId)`: a no-op unless the day's record is open; otherwise that record gets the
      clock-out instant and the elapsed hours, and every record sharing its id is replaced by it. */
  function ClockOut(L: Ledger, u: UserId, c: Clock): (L': Ledger)
    ensures |L'| == |L|
    ensures !CanClose(L, u, c.today) ==> L' == L
    ensures CanClose(L, u, c.today) ==>
      var i := FindIndex(L, u, c.today).value;
      && L'[i] == ClosedRecord(L[i], c.now)
      && L'[i].totalHours == Some(HundredthsBetween(L[i].clockIn.value, c.now))
      && (forall j :: 0 <= j < |L| && L[j].id == L[i].id ==> L'[j] == ClosedRecord(L[i], c.now))
      && forall j :: 0 <= j < |L| && L[j].id != L[i].id ==> L'[j] == L[j]
  {
    if !CanClose(L, u, c.today) then L
    else
      var e := TodaysAttendance(L, u, c.today).value;
      ReplaceById(L, e.id, ClosedRecord(e, c.now))
  }

  // ---------------------------------------------------------------------------------------
  // Well-formed ledgers

  function DistinctIds(): (AttendanceRecord, AttendanceRecord) -> bool {
    (a: AttendanceRecord, b: AttendanceRecord) => a.id != b.id
  }

  function DistinctKeys(): (AttendanceRecord, AttendanceRecord) -> bool {
    (a: AttendanceRecord, b: AttendanceRecord) => !(a.userId == b.userId && a.date == b.date)
  }

  ghost predicate UniqueIds(L: Ledger) {
    Pairwise(L, DistinctIds())
  }

  /** At most one record per (user, day). */
  ghost predicate UniqueKeys(L: Ledger) {
    Pairwise(L, DistinctKeys())
  }

  /** A clock-out implies a clock-in, and hours are recorded exactly when clocked out. */
  predicate Consistent(r: AttendanceRecord) {
    && (r.clockOut.Some? ==> r.clockIn.Some?)
    && (r.totalHours.Some? <==> r.clockOut.Some?)
  }

  ghost predicate WellFormed(L: Ledger) {
    UniqueIds(L) && UniqueKeys(L) && forall j :: 0 <= j < |L| ==> Consistent(L[j])
  }

  predicate FreshId(L: Ledger, id: RecordId) {
    forall j :: 0 <= j < |L| ==> L[j].id != id
  }

  lemma ClockInPreservesWellFormed(L: Ledger, u: UserId, c: Clock, freshId: RecordId)
    requires WellFormed(L) && FreshId(L, freshId)
    ensures WellFormed(ClockIn(L, u, c, freshId))
  {
    if !HasClockedIn(L, u, c.today) {
      var kept := Filter(L, OtherKey(u, c.today));
      var nr := NewRecord(u, c, freshId);
      FilterKeepsPairwise(L, OtherKey(u, c.today), DistinctIds());
      FilterKeepsPairwise(L, OtherKey(u, c.today), DistinctKeys());
      forall j | 0 <= j < |kept|
        ensures DistinctIds()(kept[j], nr) && DistinctKeys()(kept[j], nr) && Consistent(kept[j])
      {
        assert kept[j] in L;
      }
      PairwiseSnoc(kept, nr, DistinctIds());
      PairwiseSnoc(kept, nr, DistinctKeys());
    }
  }

  /** With unique ids, replacing by id rewrites exactly one position. */
  lemma ReplaceByIdIsUpdate(L: Ledger, i: nat, rec: AttendanceRecord)
    requires UniqueIds(L) && i < |L|
    ensures ReplaceById(L, L[i].id, rec) == L[i := rec]
  {
    var L' := ReplaceById(L, L[i].id, rec);
    forall j | 0 <= j < |L|
      ensures L'[j] == L[i := rec][j]
    {
      if j < i {
        assert DistinctIds()(L[j], L[i]);
      } else if j > i {
        assert DistinctIds()(L[i], L[j]);
      }
    }
  }

  /** Under unique ids, a clock-out that is not a no-op changes exactly the day's first record. */
  lemma ClockOutIsUpdate(L: Ledger, u: UserId, c: Clock)
    requires UniqueIds(L) && CanClose(L, u, c.today)
    ensures var i := FindIndex(L, u, c.today).value;
      ClockOut(L, u, c) == L[i := ClosedRecord(L[i], c.now)]
  {
    ReplaceByIdIsUpdate(L, FindIndex(L, u, c.today).value,
                        ClosedRecord(TodaysAttendance(L, u, c.today).value, c.now));
  }

  /** Rewriting records without touching their ids, users or dates keeps both uniqueness rules. */
  lemma SameIdentityKeepsUnique(L: Ledger, M: Ledger)
    requires UniqueIds(L) && UniqueKeys(L) && |M| == |L|
    requires forall j :: 0 <= j < |L| ==>
      M[j].id == L[j].id && M[j].userId == L[j].userId && M[j].date == L[j].date
    ensures UniqueIds(M) && UniqueKeys(M)
  {
    forall a, b | 0 <= a < b < |M|
      ensures DistinctIds()(M[a], M[b]) && DistinctKeys()(M[a], M[b])
    {
      assert DistinctIds()(L[a], L[b]) && DistinctKeys()(L[a], L[b]);
    }
  }

  lemma ClockOutPreservesWellFormed(L: Ledger, u: UserId, c: Clock)
    requires WellFormed(L)
    ensures WellFormed(ClockOut(L, u, c))
  {
    if CanClose(L, u, c.today) {
      var i := FindIndex(L, u, c.today).value;
      var M := L[i := ClosedRecord(L[i], c.now)];
      SameIdentityKeepsUnique(L, M);
      assert forall j :: 0 <= j < |M| ==> Consistent(M[j]);
      ClockOutIsUpdate(L, u, c);
    }
  }

  // ---------------------------------------------------------------------------------------
  // The lifecycle of one (user, day): none -> clocked in -> clocked out

  datatype Phase = NoRecord | NotClockedIn | ClockedIn(since: Instant) | ClockedOut(since: Instant, until: Instant)

  function PhaseOf(L: Ledger, u: UserId, d: Date): Phase {
    PhaseOfRecord(TodaysAttendance(L, u, d))
  }

  function PhaseOfRecord(found: Option<AttendanceRecord>): Phase {
    match found
    case None => NoRecord
    case Some(r) =>
      if r.clockIn.None? then NotClockedIn
      else if r.clockOut.None? then ClockedIn(r.clockIn.value)
      else ClockedOut(r.clockIn.value, r.clockOut.value)
  }

  /** Clock-in moves the day's key from no record (or a record without clock-in) to clocked in at
      `now`; every other state, and every other key, is left as it was. */
  lemma ClockInTransition(L: Ledger, u: UserId, c: Clock, freshId: RecordId, u2: UserId, d2: Date)
    ensures PhaseOf(ClockIn(L, u, c, freshId), u2, d2) ==
      if u2 == u && d2 == c.today && (PhaseOf(L, u, c.today).NoRecord? || PhaseOf(L, u, c.today).NotClockedIn?)
      then ClockedIn(c.now)
      else PhaseOf(L, u2, d2)
  {
    if !HasClockedIn(L, u, c.today) {
      ClockInRecordsFor(L, u, c, freshId, u2, d2);
      TodaysAttendanceIsFirstOfKey(ClockIn(L, u, c, freshId), u2, d2);
      TodaysAttendanceIsFirstOfKey(L, u2, d2);
    }
  }

  /** Under unique ids, after a clock-out that is not a no-op the lookup of the day's key finds
      the closed record, and every other lookup is unchanged. */
  lemma ClockOutLookup(L: Ledger, u: UserId, c: Clock, u2: UserId, d2: Date)
    requires UniqueIds(L) && CanClose(L, u, c.today)
    ensures TodaysAttendance(ClockOut(L, u, c), u2, d2) ==
      if u2 == u && d2 == c.today
      then Some(ClosedRecord(TodaysAttendance(L, u, c.today).value, c.now))
      else TodaysAttendance(L, u2, d2)
  {
    ClockOutIsUpdate(L, u, c);
    var i := FindIndex(L, u, c.today).value;
    var L' := L[i := ClosedRecord(L[i], c.now)];
    assert forall j :: 0 <= j < |L| ==> L'[j].userId == L[j].userId && L'[j].date == L[j].date;
    FindIndexSeesOnlyKeys(L, L', u2, d2);
    if !(u2 == u && d2 == c.today) {
      match FindIndex(L, u2, d2)
      case None =>
      case Some(k) =>
        assert IsFor(L[i], u, c.today) && IsFor(L[k], u2, d2);
        assert L'[k] == L[k];
    }
  }

  /** Clock-out moves the day's key from clocked in to clocked out at `now`, keeping the clock-in
      time; every other state, and every other key, is left as it was. */
  lemma ClockOutTransition(L: Ledger, u: UserId, c: Clock, u2: UserId, d2: Date)
    requires UniqueIds(L)
    ensures PhaseOf(ClockOut(L, u, c), u2, d2) ==
      if u2 == u && d2 == c.today && PhaseOf(L, u, c.today).ClockedIn?
      then ClockedOut(PhaseOf(L, u, c.today).since, c.now)
      else PhaseOf(L, u2, d2)
  {
    var L' := ClockOut(L, u, c);
    if CanClose(L, u, c.today) {
      var e := TodaysAttendance(L, u, c.today).value;
      assert PhaseOf(L, u, c.today) == ClockedIn(e.clockIn.value);
      ClockOutLookup(L, u, c, u2, d2);
      if u2 == u && d2 == c.today {
        assert TodaysAttendance(L', u2, d2) == Some(ClosedRecord(e, c.now));
        assert PhaseOf(L', u2, d2) == ClockedOut(e.clockIn.value, c.now);
      } else {
        assert TodaysAttendance(L', u2, d2) == TodaysAttendance(L, u2, d2);
        assert PhaseOf(L', u2, d2) == PhaseOf(L, u2, d2);
      }
    } else {
      assert L' == L;
      assert !PhaseOf(L, u, c.today).ClockedIn?;
      assert PhaseOf(L', u2, d2) == PhaseOf(L, u2, d2);
    }
  }

  /** One call from the clock buttons. */
  datatype Action = ClockInAction(user: UserId, clock: Clock, freshId: RecordId)
                  | ClockOutAction(user: UserId, clock: Clock)

  function Step(L: Ledger, a: Action): Ledger {
    match a
    case ClockInAction(u, c, id) => ClockIn(L, u, c, id)
    case ClockOutAction(u, c) => ClockOut(L, u, c)
  }

  /** Every clock-in of the run gets an id not yet in the ledger (the `Date.now()` ids). */
  predicate FreshRun(L: Ledger, actions: seq<Action>)
    decreases |actions|
  {
    |actions| == 0 ||
    ((actions[0].ClockInAction? ==> FreshId(L, actions[0].freshId)) &&
     FreshRun(Step(L, actions[0]), actions[1..]))
  }

  function Run(L: Ledger, actions: seq<Action>): Ledger
    decreases |actions|
  {
    if |actions| == 0 then L else Run(Step(L, actions[0]), actions[1..])
  }

  predicate Started(p: Phase) {
    p.ClockedIn? || p.ClockedOut?
  }

  /** One action keeps the ledger well formed, keeps a set clock-in time and a clocked-out day. */
  lemma StepKeepsLifecycle(L: Ledger, a: Action, u: UserId, d: Date)
    requires WellFormed(L)
    requires a.ClockInAction? ==> FreshId(L, a.freshId)
    ensures WellFormed(Step(L, a))
    ensures Started(PhaseOf(L, u, d)) ==>
      Started(PhaseOf(Step(L, a), u, d)) && PhaseOf(Step(L, a), u, d).since == PhaseOf(L, u, d).since
    ensures PhaseOf(L, u, d).ClockedOut? ==> PhaseOf(Step(L, a), u, d) == PhaseOf(L, u, d)
  {
    match a
    case ClockInAction(v, c, id) =>
      ClockInPreservesWellFormed(L, v, c, id);
      ClockInTransition(L, v, c, id, u, d);
    case ClockOutAction(v, c) =>
      ClockOutPreservesWellFormed(L, v, c);
      ClockOutTransition(L, v, c, u, d);
  }

  /** Any run of clock-ins and clock-outs keeps the ledger well formed (in particular at most one
      record per user and day), and never changes a clock-in time once set, nor a clocked-out day. */
  lemma {:induction false} RunKeepsLifecycle(L: Ledger, actions: seq<Action>, u: UserId, d: Date)
    requires WellFormed(L) && FreshRun(L, actions)
    ensures WellFormed(Run(L, actions))
    ensures Started(PhaseOf(L, u, d)) ==>
      Started(PhaseOf(Run(L, actions), u, d)) && PhaseOf(Run(L, actions), u, d).since == PhaseOf(L, u, d).since
    ensures PhaseOf(L, u, d).ClockedOut? ==> PhaseOf(Run(L, actions), u, d) == PhaseOf(L, u, d)
    decreases |actions|
  {
    if |actions| > 0 {
      StepKeepsLifecycle(L, actions[0], u, d);
      RunKeepsLifecycle(Step(L, actions[0]), actions[1..], u, d);
    }
  }

  // ---------------------------------------------------------------------------------------
  // Queries

  /** `record.totalHours || 0`. */
  function HoursOf(r: AttendanceRecord): Hundredths {
    r.totalHours.GetOr(0)
  }

  /** `records.reduce((total, record) => total + (record.totalHours || 0), 0)`. */
  function SumHours(s: seq<AttendanceRecord>): Hundredths {
    if |s| == 0 then 0 else HoursOf(s[0]) + SumHours(s[1..])
  }

  lemma {:induction false} SumHoursAppend(a: seq<AttendanceRecord>, b: seq<AttendanceRecord>)
    ensures SumHours(a + b) == SumHours(a) + SumHours(b)
  {
    if |a| == 0 {
      assert a + b == b;
    } else {
      assert (a + b)[1..] == a[1..] + b;
      SumHoursAppend(a[1..], b);
    }
  }

  /** The record is the user's and dated from the Sunday of `today`'s week up to `today`. */
  predicate InWeekSoFar(r: AttendanceRecord, u: UserId, today: Date) {
    r.userId == u && WeekStart(today) <= DayNumber(r.date) <= DayNumber(today)
  }

  function WeekSoFar(u: UserId, today: Date): AttendanceRecord -> bool {
    r => InWeekSoFar(r, u, today)
  }

  /** `getWeeklyHours(userId)`, in hundredths. */
  function WeeklyHours(L: Ledger, u: UserId, today: Date): Hundredths {
    SumHours(Filter(L, WeekSoFar(u, today)))
  }

  /** Weekly hours grow by a record's hours exactly when the record is the user's and dated in the
      current week up to today; any other record adds nothing. With `WeeklyHours([]) == 0`, this
      determines the query on every ledger. */
  lemma WeeklyHoursSnoc(L: Ledger, r: AttendanceRecord, u: UserId, today: Date)
    ensures WeeklyHours([], u, today) == 0
    ensures WeeklyHours(L + [r], u, today) ==
      WeeklyHours(L, u, today) + (if InWeekSoFar(r, u, today) then HoursOf(r) else 0)
  {
    FilterSnoc(L, r, WeekSoFar(u, today));
    SumHoursAppend(Filter(L, WeekSoFar(u, today)), [r]);
  }

  /** Rewriting one record that counts towards the week, into another that counts, changes the
      weekly hours by the difference of their hours. */
  lemma WeeklyHoursUpdate(L: Ledger, i: nat, r: AttendanceRecord, u: UserId, today: Date)
    requires i < |L| && InWeekSoFar(L[i], u, today) && InWeekSoFar(r, u, today)
    ensures WeeklyHours(L[i := r], u, today) == WeeklyHours(L, u, today) - HoursOf(L[i]) + HoursOf(r)
  {
    var p := WeekSoFar(u, today);
    assert L == L[..i] + [L[i]] + L[i + 1..];
    assert L[i := r] == L[..i] + [r] + L[i + 1..];
    FilterAppend(L[..i] + [L[i]], L[i + 1..], p);
    FilterAppend(L[..i], [L[i]], p);
    FilterAppend(L[..i] + [r], L[i + 1..], p);
    FilterAppend(L[..i], [r], p);
    FilterSingleton(L[i], p);
    FilterSingleton(r, p);
    var a, b := Filter(L[..i], p), Filter(L[i + 1..], p);
    SumHoursAppend(a + [L[i]], b);
    SumHoursAppend(a, [L[i]]);
    SumHoursAppend(a + [r], b);
    SumHoursAppend(a, [r]);
  }

  predicate IsUsersInMonth(r: AttendanceRecord, u: UserId, ym: YearMonth) {
    r.userId == u && InMonth(r.date, ym)
  }

  function UserInMonth(u: UserId, ym: YearMonth): AttendanceRecord -> bool {
    r => IsUsersInMonth(r, u, ym)
  }

  function ByUser(u: UserId): AttendanceRecord -> bool {
    (r: AttendanceRecord) => r.userId == u
  }

  function DatedIn(ym: YearMonth): AttendanceRecord -> bool {
    (r: AttendanceRecord) => InMonth(r.date, ym)
  }

  /** `getMonthlyAttendance(userId, month)`: the user's records dated in the month, in ledger
      order. */
  function MonthlyAttendance(L: Ledger, u: UserId, ym: YearMonth): (r: seq<AttendanceRecord>)
    ensures forall x :: x in r <==> x in L && x.userId == u && InMonth(x.date, ym)
    ensures forall k :: 0 <= k < |L| && ByUser(u)(L[k]) && DatedIn(ym)(L[k]) ==> L[k] in r
    ensures forall x :: multiset(r)[x] == if x.userId == u && InMonth(x.date, ym) then multiset(L)[x] else 0
  {
    FilterMultiset(L, UserInMonth(u, ym));
    Filter(L, UserInMonth(u, ym))
  }

  /** The query grows with the ledger in ledger order: an appended record is appended to the
      result exactly when it is the user's and dated in the month. With the empty ledger giving
      the empty result, this fixes the result, order and multiplicity included, on every ledger. */
  lemma MonthlyAttendanceSnoc(L: Ledger, r: AttendanceRecord, u: UserId, ym: YearMonth)
    ensures MonthlyAttendance([], u, ym) == []
    ensures MonthlyAttendance(L + [r], u, ym) ==
      MonthlyAttendance(L, u, ym) + (if r.userId == u && InMonth(r.date, ym) then [r] else [])
  {
    FilterSnoc(L, r, UserInMonth(u, ym));
  }

  /** The month's records restricted to one user, as the reports page computes them, are exactly
      that user's monthly attendance. */
  lemma MonthlyAttendanceIsMonthThenUser(L: Ledger, u: UserId, ym: YearMonth)
    ensures MonthlyAttendance(L, u, ym) == Filter(Filter(L, DatedIn(ym)), ByUser(u))
    ensures MonthlyAttendance(L, u, ym) == Filter(Filter(L, ByUser(u)), DatedIn(ym))
  {
    FilterConjunction(L, DatedIn(ym), ByUser(u), UserInMonth(u, ym));
    FilterConjunction(L, ByUser(u), DatedIn(ym), UserInMonth(u, ym));
  }
}

=== FILE: attendance_view.dfy ===
/** The attendance page: the records shown for the selected employee and for the selected month or
    the current week, newest date first, with their total hours and count. */
module AttendanceView {
  import opened Wrappers
  import opened Seqs
  import opened Calendar
  import opened Types
  import opened AttendanceLedger
  import opened Sorting

  /** The initial employee filter: '' (everyone) for an admin, the user's own id otherwise, and
      '' when nobody is signed in. */
  function DefaultEmployeeFilter(user: Option<User>): (e: UserId)
    ensures user.Some? && user.value.role != Admin ==> e == user.value.id
    ensures user.None? || user.value.role == Admin ==> e == ""
  {
    match user
    case None => ""
    case Some(u) => if u.role == Admin then "" else u.id
  }

  /** The page's two view types; the week is the one containing `today`, Sunday to Saturday. */
  datatype View = MonthView(month: YearMonth) | WeekView(today: Date)

  predicate InView(r: AttendanceRecord, v: View) {
    match v
    case MonthView(ym) => InMonth(r.date, ym)
    case WeekView(today) => WeekStart(today) <= DayNumber(r.date) <= WeekStart(today) + 6
  }

  function Viewed(v: View): AttendanceRecord -> bool {
    r => InView(r, v)
  }

  // ---------------------------------------------------------------------------------------
  // Newest first: `sort((a, b) => new Date(b.date).getTime() - new Date(a.date).getTime())`,
  // the stable sort on the record's day.

  function Day(r: AttendanceRecord): int {
    DayNumber(r.date)
  }

  predicate NewestFirst(s: seq<AttendanceRecord>) {
    Descending(s, Day)
  }

  function OnDay(n: int): AttendanceRecord -> bool {
    HasKey(Day, n)
  }

  lemma {:induction false} InsertDescAddsHours(x: AttendanceRecord, s: seq<AttendanceRecord>)
    ensures SumHours(InsertDesc(x, s, Day)) == HoursOf(x) + SumHours(s)
  {
    if |s| > 0 && Day(s[0]) > Day(x) {
      InsertDescAddsHours(x, s[1..]);
      assert InsertDesc(x, s, Day)[1..] == InsertDesc(x, s[1..], Day);
    }
  }

  /** Sorting does not change the total hours. */
  lemma {:induction false} SortKeepsHours(s: seq<AttendanceRecord>)
    ensures SumHours(SortDesc(s, Day)) == SumHours(s)
  {
    if |s| > 0 {
      SortKeepsHours(s[1..]);
      InsertDescAddsHours(s[0], SortDesc(s[1..], Day));
    }
  }

  // ---------------------------------------------------------------------------------------
  // The page's queries

  /** The records before sorting: the employee's ('' selects everyone) inside the view. */
  function Unsorted(L: Ledger, employee: UserId, v: View): seq<AttendanceRecord> {
    var byEmployee := if employee != "" then Filter(L, ByUser(employee)) else L;
    Filter(byEmployee, Viewed(v))
  }

  /** `filterRecords()`. */
  function FilterRecords(L: Ledger, employee: UserId, v: View): (r: seq<AttendanceRecord>)
    ensures NewestFirst(r)
    ensures multiset(r) == multiset(Unsorted(L, employee, v))
    ensures |r| <= |L|
    ensures forall x :: x in r <==> x in L && (employee == "" || x.userId == employee) && InView(x, v)
    ensures forall n :: Filter(r, OnDay(n)) == Filter(Unsorted(L, employee, v), OnDay(n))
  {
    var u := Unsorted(L, employee, v);
    var r := SortDesc(u, Day);
    SortDescKeepsElements(u, Day);
    forall n ensures Filter(r, OnDay(n)) == Filter(u, OnDay(n)) {
      SortDescIsStable(u, Day, n);
    }
    r
  }

  /** `getTotalHours()`: the hours of the shown records, missing hours counting as 0. The total
      does not depend on the display order, so it is the sum over the ledger order. */
  function TotalHours(L: Ledger, employee: UserId, v: View): (h: Hundredths)
    ensures h == SumHours(Unsorted(L, employee, v))
  {
    SortKeepsHours(Unsorted(L, employee, v));
    SumHours(FilterRecords(L, employee, v))
  }

  /** The 'Present Days' figure: the number of shown records, whatever their status. */
  function PresentDays(L: Ledger, employee: UserId, v: View): (n: nat)
    ensures n == |Unsorted(L, employee, v)|
  {
    |FilterRecords(L, employee, v)|
  }

  /** A signed-in employee, under the initial filter, sees only their own records. */
  lemma EmployeeSeesOwnRecords(L: Ledger, u: User, v: View)
    requires u.role == Employee && u.id != ""
    ensures forall x :: x in FilterRecords(L, DefaultEmployeeFilter(Some(u)), v) ==> x.userId == u.id
  {
  }

  /** In month view, the shown records are exactly what `getMonthlyAttendance` returns for the
      selected employee, reordered newest first. */
  lemma MonthViewIsMonthlyAttendance(L: Ledger, u: UserId, ym: YearMonth)
    requires u != ""
    ensures multiset(FilterRecords(L, u, MonthView(ym))) == multiset(MonthlyAttendance(L, u, ym))
  {
    FilterConjunction(L, ByUser(u), Viewed(MonthView(ym)), UserInMonth(u, ym));
  }
}

=== FILE: auth_routes.dfy ===
/** The server's `/register` and `/login` handlers as functions of the request body and the user
    collection. Saving, password comparison and token signing are inputs: their outcomes are
    parameters, so every branch the handlers take is reachable. */
module AuthRoutes {
  import opened Wrappers
  import opened Seqs
  import opened UserStore

  const AllFieldsRequired := "All fields are required"
  const UserAlreadyExists := "User already exists"
  const CredentialsRequired := "Email and password are required"
  const InvalidCredentials := "Invalid credentials"

  /** A body field: absent, or the string sent. */
  type Field = Option<string>

  /** A field is truthy when present and non-empty. */
  predicate Given(f: Field) {
    f.Some? && f.value != ""
  }

  datatype RegisterBody = RegisterBody(name: Field, email: Field, password: Field, role: Field,
                                       department: Field, joinDate: Field)

  predicate AllGiven(b: RegisterBody) {
    Given(b.name) && Given(b.email) && Given(b.password) && Given(b.role)
    && Given(b.department) && Given(b.joinDate)
  }

  /** The user `new User({...})` creates, with the id the database assigns. */
  function NewUser(b: RegisterBody, newId: string): StoredUser
    requires AllGiven(b)
  {
    StoredUser(newId, b.name.value, b.email.value, b.password.value, b.role.value,
               b.department.value, b.joinDate.value)
  }

  predicate EmailTaken(store: Store, email: string) {
    FindByEmail(store, email).Some?
  }

  datatype RouteResult = RouteResult(store: Store, reply: Reply)

  /** `POST /register`. The field check comes first, then the email look-up, then the save, then
      the token. A failed save is answered with 500 and stores nothing; a failed signing is
      answered with 500 although the user is already stored. */
  function Register(store: Store, b: RegisterBody, newId: string, saveError: Option<string>, signing: Signing)
    : (r: RouteResult)
    ensures !AllGiven(b) ==> r == RouteResult(store, Reply(400, Failure(AllFieldsRequired)))
    ensures AllGiven(b) && EmailTaken(store, b.email.value) ==>
      r == RouteResult(store, Reply(400, Failure(UserAlreadyExists)))
    ensures AllGiven(b) && !EmailTaken(store, b.email.value) && saveError.Some? ==>
      r == RouteResult(store, Reply(500, Failure(saveError.value)))
    ensures AllGiven(b) && !EmailTaken(store, b.email.value) && saveError.None? ==>
      && r.store == store + [NewUser(b, newId)]
      && (signing.Signed? ==> r.reply == Reply(201, WithToken(signing.token, WithoutPassword(NewUser(b, newId)))))
      && (signing.SignFailed? ==> r.reply == Reply(500, Failure(signing.message)))
  {
    if !AllGiven(b) then RouteResult(store, Reply(400, Failure(AllFieldsRequired)))
    else if EmailTaken(store, b.email.value) then RouteResult(store, Reply(400, Failure(UserAlreadyExists)))
    else if saveError.Some? then RouteResult(store, Reply(500, Failure(saveError.value)))
    else
      var u := NewUser(b, newId);
      match signing
      case Signed(token) => RouteResult(store + [u], Reply(201, WithToken(token, WithoutPassword(u))))
      case SignFailed(m) => RouteResult(store + [u], Reply(500, Failure(m)))
  }

  /** A register either leaves the collection as it was or appends one user with the body's
      email, and it succeeds exactly when all fields are given, the email is new and saving and
      signing both work. */
  lemma RegisterOutcomes(store: Store, b: RegisterBody, newId: string, saveError: Option<string>, signing: Signing)
    ensures var r := Register(store, b, newId, saveError, signing);
      && (r.store == store || (|r.store| == |store| + 1 && r.store[..|store|] == store
                               && Some(r.store[|store|].email) == b.email))
      && (r.reply.Success() <==>
            AllGiven(b) && !EmailTaken(store, b.email.value) && saveError.None? && signing.Signed?)
      && (r.reply.Success() ==> r.reply.status == 201)
  {
  }

  /** A missing field is reported even when the email is taken: the field check comes first. */
  lemma RegisterChecksFieldsFirst(store: Store, b: RegisterBody, newId: string, saveError: Option<string>, signing: Signing)
    requires b.email.Some? && EmailTaken(store, b.email.value) && !Given(b.joinDate)
    ensures Register(store, b, newId, saveError, signing).reply == Reply(400, Failure(AllFieldsRequired))
  {
  }

  /** Registering keeps emails unique. */
  lemma RegisterKeepsEmailsUnique(store: Store, b: RegisterBody, newId: string, saveError: Option<string>, signing: Signing)
    requires EmailsUnique(store)
    ensures EmailsUnique(Register(store, b, newId, saveError, signing).store)
  {
    var r := Register(store, b, newId, saveError, signing);
    if r.store != store {
      var u := NewUser(b, newId);
      assert forall j :: 0 <= j < |store| ==> DistinctEmails()(store[j], u);
      PairwiseSnoc(store, u, DistinctEmails());
    }
  }

  // ---------------------------------------------------------------------------------------
  // Login

  /** `POST /login`. `matches` stands for the stored user's password comparison. An unknown email
      and a wrong password get the same reply. */
  function Login(store: Store, email: Field, password: Field, matches: (StoredUser, string) -> bool, signing: Signing)
    : (r: Reply)
    ensures !(Given(email) && Given(password)) ==> r == Reply(400, Failure(CredentialsRequired))
    ensures Given(email) && Given(password) ==>
      var i := FindByEmail(store, email.value);
      && (i.None? || !matches(store[i.value], password.value) ==> r == Reply(401, Failure(InvalidCredentials)))
      && (i.Some? && matches(store[i.value], password.value) ==>
            var u := store[i.value];
            && (signing.Signed? ==> r == Reply(200, LoginBody(signing.token, u.id, u.name, u.email, u.role)))
            && (signing.SignFailed? ==> r == Reply(500, Failure(signing.message))))
  {
    if !(Given(email) && Given(password)) then Reply(400, Failure(CredentialsRequired))
    else
      match FindByEmail(store, email.value)
      case None => Reply(401, Failure(InvalidCredentials))
      case Some(i) =>
        if !matches(store[i], password.value) then Reply(401, Failure(InvalidCredentials))
        else
          match signing
          case Signed(token) => Reply(200, LoginBody(token, store[i].id, store[i].name, store[i].email, store[i].role))
          case SignFailed(m) => Reply(500, Failure(m))
  }

  /** The reply does not tell an unknown email from a wrong password. */
  lemma LoginHidesWhichCheckFailed(store1: Store, store2: Store, email: string, password: string,
                                   matches: (StoredUser, string) -> bool, signing: Signing)
    requires email != "" && password != ""
    requires !EmailTaken(store1, email)
    requires EmailTaken(store2, email) && !matches(store2[FindByEmail(store2, email).value], password)
    ensures Login(store1, Some(email), Some(password), matches, signing)
         == Login(store2, Some(email), Some(password), matches, signing)
  {
  }

  /** A user who has just registered can log in with the same email and a password the comparison
      accepts, and the login reply names the stored user. */
  lemma RegisterThenLogin(store: Store, b: RegisterBody, newId: string, t1: string, t2: string,
                          matches: (StoredUser, string) -> bool)
    requires AllGiven(b) && !EmailTaken(store, b.email.value)
    requires matches(NewUser(b, newId), b.password.value)
    ensures var r := Register(store, b, newId, None, Signed(t1));
      && r.reply.status == 201
      && Login(r.store, b.email, b.password, matches, Signed(t2))
         == Reply(200, LoginBody(t2, newId, b.name.value, b.email.value, b.role.value))
  {
    var r := Register(store, b, newId, None, Signed(t1));
    var i := FindByEmail(r.store, b.email.value);
    assert r.store[|store|].email == b.email.value;
    assert i.Some? && i.value == |store|;
  }
}

=== FILE: calendar.dfy ===
/** The proleptic Gregorian calendar at day granularity: what the application reads out of its
    'yyyy-MM-dd' and 'yyyy-MM' strings and what it asks of date-fns (`startOfMonth`,
    `endOfMonth`, `eachDayOfInterval`, `getDay`, `startOfWeek`, `endOfWeek`). */
module Calendar {

  type MonthNumber = m: int | 1 <= m <= 12 witness 1

  /** A calendar day, the value behind a 'yyyy-MM-dd' string. */
  datatype Date = Date(year: int, month: MonthNumber, day: int)

  /** A calendar month, the value of an `<input type="month">` ('yyyy-MM'). */
  datatype YearMonth = YearMonth(year: int, month: MonthNumber)

  predicate IsLeapYear(y: int) {
    y % 4 == 0 && (y % 100 != 0 || y % 400 == 0)
  }

  function DaysInMonth(y: int, m: MonthNumber): (n: int)
    ensures 28 <= n <= 31
    ensures m == 2 ==> (n == 29 <==> IsLeapYear(y))
  {
    if m == 2 then (if IsLeapYear(y) then 29 else 28)
    else if m == 4 || m == 6 || m == 9 || m == 11 then 30
    else 31
  }

  predicate ValidDate(d: Date) {
    1 <= d.day <= DaysInMonth(d.year, d.month)
  }

  /** Number of leap years in 1..n (for n >= 0); floor division extends it below zero. */
  function LeapYearsThrough(n: int): int {
    n / 4 - n / 100 + n / 400
  }

  /** Days from 1970-01-01 to January 1st of year `y`. */
  function DaysBeforeYear(y: int): int {
    365 * (y - 1970) + LeapYearsThrough(y - 1) - LeapYearsThrough(1969)
  }

  /** Days from January 1st to the first day of month `m` of year `y`. */
  function DaysBeforeMonth(y: int, m: MonthNumber): int {
    var cumulative := [0, 31, 59, 90, 120, 151, 181, 212, 243, 273, 304, 334];
    cumulative[m - 1] + (if m > 2 && IsLeapYear(y) then 1 else 0)
  }

  /** Days since 1970-01-01: the date's `getTime()` divided by one day, at UTC midnight. */
  function DayNumber(d: Date): int {
    DaysBeforeYear(d.year) + DaysBeforeMonth(d.year, d.month) + d.day - 1
  }

  /** `Date.getDay()` of a day number: 0 is Sunday and 6 is Saturday; day 0 was a Thursday. */
  function WeekdayOf(n: int): (w: int)
    ensures 0 <= w < 7
  {
    (n + 4) % 7
  }

  function Weekday(d: Date): (w: int)
    ensures 0 <= w < 7
  {
    WeekdayOf(DayNumber(d))
  }

  /** Day number of the Sunday that starts the week of `d` (`startOfWeek` with its default
      Sunday start). */
  function WeekStart(d: Date): (s: int)
    ensures s <= DayNumber(d) < s + 7
    ensures WeekdayOf(s) == 0
  {
    DayNumber(d) - Weekday(d)
  }

  predicate IsWorkingDay(n: int) {
    WeekdayOf(n) != 0 && WeekdayOf(n) != 6
  }

  /** Number of working days among the `n` consecutive days starting at day number `start`. */
  function WorkingDaysFrom(start: int, n: nat): (k: nat)
    ensures k <= n
    decreases n
  {
    if n == 0 then 0
    else (if IsWorkingDay(start) then 1 else 0) + WorkingDaysFrom(start + 1, n - 1)
  }

  function FirstDay(ym: YearMonth): Date {
    Date(ym.year, ym.month, 1)
  }

  function LengthOf(ym: YearMonth): int {
    DaysInMonth(ym.year, ym.month)
  }

  /** Days of the month that are neither Saturday nor Sunday: the length of
      `eachDayOfInterval(startOfMonth, endOfMonth)` filtered on `getDay()`. */
  function WorkingDaysInMonth(ym: YearMonth): nat {
    WorkingDaysFrom(DayNumber(FirstDay(ym)), LengthOf(ym))
  }

  /** The date belongs to the month. */
  predicate InMonth(d: Date, ym: YearMonth) {
    d.year == ym.year && d.month == ym.month
  }

  // ---------------------------------------------------------------------------------------
  // Day numbers

  /** The first day of a month follows the previous month's first day by that month's length. */
  lemma DayNumberOfNextMonth(y: int, m: MonthNumber)
    requires m < 12
    ensures DayNumber(Date(y, m + 1, 1)) == DayNumber(Date(y, m, 1)) + DaysInMonth(y, m)
  {
  }

  /** Year `y` is counted by `LeapYearsThrough(y)` and not by `LeapYearsThrough(y - 1)` exactly
      when it is a leap year. */
  lemma LeapYearsStep(y: int)
    ensures LeapYearsThrough(y) - LeapYearsThrough(y - 1) == if IsLeapYear(y) then 1 else 0
  {
    DivStep(y, 4);
    DivStep(y, 100);
    DivStep(y, 400);
  }

  /** Moving from `y - 1` to `y` raises the quotient by `k` exactly when `k` divides `y`. */
  lemma DivStep(y: int, k: int)
    requires k > 0
    ensures y / k - (y - 1) / k == if y % k == 0 then 1 else 0
  {
    var q, r := (y - 1) / k, (y - 1) % k;
    assert y == k * q + r + 1;
    if r == k - 1 {
      assert y == k * (q + 1) + 0;
      DivUnique(y, k, q + 1, 0);
    } else {
      DivUnique(y, k, q, r + 1);
    }
  }

  /** Euclidean division is determined by quotient and remainder. */
  lemma DivUnique(y: int, k: int, q: int, r: int)
    requires k > 0 && 0 <= r < k && y == k * q + r
    ensures y / k == q && y % k == r
  {
    var q', r' := y / k, y % k;
    assert k * q + r == k * q' + r';
    if q > q' {
      MulAtLeast(k, q - q');
    } else if q < q' {
      MulAtLeast(k, q' - q);
    }
  }

  lemma {:induction false} MulAtLeast(k: int, n: int)
    requires k > 0 && n > 0
    ensures k * n >= k
    decreases n
  {
    if n > 1 {
      MulAtLeast(k, n - 1);
      assert k * n == k * (n - 1) + k;
    }
  }

  /** New Year's Day follows the first of December by December's 31 days. */
  lemma DayNumberOfNextYear(y: int)
    ensures DayNumber(Date(y + 1, 1, 1)) == DayNumber(Date(y, 12, 1)) + 31
  {
    LeapYearsStep(y);
  }

  lemma DayNumberOfEpoch()
    ensures DayNumber(Date(1970, 1, 1)) == 0
    ensures Weekday(Date(1970, 1, 1)) == 4
  {
  }

  /** Consecutive days of one month have consecutive day numbers, so the month is the interval
      of day numbers starting at its first day. */
  lemma DaysOfMonthAreConsecutive(ym: YearMonth, d: Date)
    requires InMonth(d, ym)
    ensures DayNumber(d) == DayNumber(FirstDay(ym)) + d.day - 1
  {
  }

  // ---------------------------------------------------------------------------------------
  // Working days

  lemma {:induction false} WorkingDaysSplit(start: int, a: nat, b: nat)
    ensures WorkingDaysFrom(start, a + b) == WorkingDaysFrom(start, a) + WorkingDaysFrom(start + a, b)
    decreases a
  {
    if a > 0 {
      WorkingDaysSplit(start + 1, a - 1, b);
    }
  }

  lemma WeekdayShift(n: int, k: int)
    requires 0 <= k < 7
    ensures WeekdayOf(n + k) == (WeekdayOf(n) + k) % 7
  {
  }

  /** Whether day `n + k` is a working day, from the weekday of day `n`. */
  function WorkingIndicator(w: int, k: int): int {
    var wk := (w + k) % 7;
    if wk != 0 && wk != 6 then 1 else 0
  }

  lemma IndicatorOfDay(start: int, k: int)
    requires 0 <= k < 7
    ensures (if IsWorkingDay(start + k) then 1 else 0) == WorkingIndicator(WeekdayOf(start), k)
  {
    WeekdayShift(start, k);
  }

  /** The working days among `k <= 7` consecutive days, counted from the weekday of the first. */
  lemma {:induction false} WorkingDaysAsIndicators(start: int, k: nat)
    requires k <= 7
    ensures WorkingDaysFrom(start, k) == SumIndicators(WeekdayOf(start), k)
  {
    if k > 0 {
      WorkingDaysAsIndicators(start, k - 1);
      WorkingDaysSplit(start, k - 1, 1);
      IndicatorOfDay(start, k - 1);
    }
  }

  /** Any seven consecutive days hold exactly five working days. */
  lemma FiveWorkingDaysPerWeek(start: int)
    ensures WorkingDaysFrom(start, 7) == 5
  {
    WorkingDaysAsIndicators(start, 7);
    IndicatorsOfAWeek(WeekdayOf(start));
  }

  lemma IndicatorsOfAWeek(w: int)
    requires 0 <= w < 7
    ensures SumIndicators(w, 7) == 5
  {
    if w == 0 {} else if w == 1 {} else if w == 2 {} else if w == 3 {}
    else if w == 4 {} else if w == 5 {} else {}
  }

  /** Working-day indicators of days `n`, ..., `n + k - 1` when day `n` has weekday `w`. */
  function SumIndicators(w: int, k: nat): int
    decreases k
  {
    if k == 0 then 0 else SumIndicators(w, k - 1) + WorkingIndicator(w, k - 1)
  }

  /** One whole week plus the remaining days. */
  lemma WeekAndRest(start: int, n: nat)
    requires 7 <= n
    ensures WorkingDaysFrom(start, n) == 5 + WorkingDaysFrom(start + 7, n - 7)
  {
    WorkingDaysSplit(start, 7, n - 7);
    FiveWorkingDaysPerWeek(start);
  }

  /** Four whole weeks plus the remaining zero to three days. */
  lemma FourWeeksAndRest(start: int, n: nat)
    requires 28 <= n
    ensures WorkingDaysFrom(start, n) == 20 + WorkingDaysFrom(start + 28, n - 28)
  {
    WeekAndRest(start, n);
    WeekAndRest(start + 7, n - 7);
    WeekAndRest(start + 14, n - 14);
    WeekAndRest(start + 21, n - 21);
  }

  /** Every month has between 20 and 23 working days; a 28-day February has exactly 20. */
  lemma WorkingDaysInMonthBounds(ym: YearMonth)
    ensures 20 <= WorkingDaysInMonth(ym) <= 23
    ensures WorkingDaysInMonth(ym) <= LengthOf(ym) - 8
    ensures LengthOf(ym) == 28 ==> WorkingDaysInMonth(ym) == 20
  {
    FourWeeksAndRest(DayNumber(FirstDay(ym)), LengthOf(ym));
  }

  /** February 2024 (a leap year) has 21 working days: four whole weeks and Thursday the 29th. */
  lemma WorkingDaysFebruary2024()
    ensures WorkingDaysInMonth(YearMonth(2024, 2)) == 21
  {
    var ym := YearMonth(2024, 2);
    assert DayNumber(FirstDay(ym)) == 19754;
    assert LengthOf(ym) == 29;
    FourWeeksAndRest(19754, 29);
    assert WeekdayOf(19754 + 28) == 4;
    assert WorkingDaysFrom(19754 + 28, 1) == 1 + WorkingDaysFrom(19754 + 29, 0);
  }

  // ---------------------------------------------------------------------------------------
  // The 'yyyy-MM-dd' and 'yyyy-MM' renderings, and the `startsWith` month test

  function Digit(n: int): (c: char)
    requires 0 <= n < 10
    ensures '0' <= c <= '9'
  {
    (48 + n) as char
  }

  function Pad2(n: int): (s: string)
    requires 0 <= n < 100
    ensures |s| == 2
  {
    [Digit(n / 10), Digit(n % 10)]
  }

  function Pad4(n: int): (s: string)
    requires 0 <= n < 10000
    ensures |s| == 4
  {
    Pad2(n / 100) + Pad2(n % 100)
  }

  predicate Renderable(d: Date) {
    0 <= d.year < 10000 && 0 <= d.day < 100
  }

  /** `format(date, 'yyyy-MM-dd')` for four-digit years. */
  function FormatDate(d: Date): (s: string)
    requires Renderable(d)
    ensures |s| == 10
  {
    Pad4(d.year) + "-" + Pad2(d.month) + "-" + Pad2(d.day)
  }

  /** The month picker's value 'yyyy-MM' for four-digit years. */
  function FormatYearMonth(ym: YearMonth): (s: string)
    requires 0 <= ym.year < 10000
    ensures |s| == 7
  {
    Pad4(ym.year) + "-" + Pad2(ym.month)
  }

  lemma Pad2Injective(a: int, b: int)
    requires 0 <= a < 100 && 0 <= b < 100
    requires Pad2(a) == Pad2(b)
    ensures a == b
  {
    assert Pad2(a)[0] == Pad2(b)[0] && Pad2(a)[1] == Pad2(b)[1];
    assert a / 10 == b / 10 && a % 10 == b % 10;
  }

  lemma Pad4Injective(a: int, b: int)
    requires 0 <= a < 10000 && 0 <= b < 10000
    requires Pad4(a) == Pad4(b)
    ensures a == b
  {
    assert Pad4(a)[..2] == Pad2(a / 100) && Pad4(b)[..2] == Pad2(b / 100);
    assert Pad4(a)[2..] == Pad2(a % 100) && Pad4(b)[2..] == Pad2(b % 100);
    Pad2Injective(a / 100, b / 100);
    Pad2Injective(a % 100, b % 100);
  }

  /** `FormatDate(d).startsWith(FormatYearMonth(ym))` holds exactly when the date lies in the
      month, which justifies modelling every month filter of the application by InMonth. */
  lemma MonthPrefixIffInMonth(d: Date, ym: YearMonth)
    requires Renderable(d) && 0 <= ym.year < 10000
    ensures FormatYearMonth(ym) <= FormatDate(d) <==> InMonth(d, ym)
  {
    var p := FormatYearMonth(ym);
    var s := FormatDate(d);
    if p <= s {
      assert p[..4] == Pad4(ym.year) && s[..4] == Pad4(d.year);
      assert p[5..7] == Pad2(ym.month) && s[5..7] == Pad2(d.month);
      assert p[..4] == s[..4] && p[5..7] == s[5..7];
      Pad4Injective(ym.year, d.year);
      Pad2Injective(ym.month, d.month);
    }
    if InMonth(d, ym) {
      assert s == p + ("-" + Pad2(d.day));
    }
  }
}

=== FILE: dashboard.dfy ===
/** The dashboard: the signed-in user's clock-in and clock-out buttons and weekly hours, and the
    admin's counts of pending leave requests and of today's attendance records. */
module Dashboard {
  import opened Wrappers
  import opened Seqs
  import opened Calendar
  import opened Types
  import opened AttendanceLedger
  import opened LeaveLedger

  /** `!todaysAttendance?.clockIn`: enabled when there is no record for today or it has no
      clock-in time. */
  function CanClockIn(L: Ledger, user: Option<User>, today: Date): (b: bool)
    ensures b <==> forall r :: TodaysAttendance(L, ActiveId(user), today) == Some(r) ==> r.clockIn.None?
  {
    !HasClockedIn(L, ActiveId(user), today)
  }

  /** `todaysAttendance?.clockIn && !todaysAttendance?.clockOut`. */
  function CanClockOut(L: Ledger, user: Option<User>, today: Date): (b: bool)
    ensures b <==> exists r :: TodaysAttendance(L, ActiveId(user), today) == Some(r)
                              && r.clockIn.Some? && r.clockOut.None?
  {
    CanClose(L, ActiveId(user), today)
  }

  /** At most one of the two buttons is enabled. */
  lemma ButtonsExclusive(L: Ledger, user: Option<User>, today: Date)
    ensures !(CanClockIn(L, user, today) && CanClockOut(L, user, today))
  {
  }

  /** `handleClockIn()`: clocks the user in when signed in with a non-empty id. */
  function HandleClockIn(L: Ledger, user: Option<User>, c: Clock, freshId: RecordId): (L': Ledger)
    ensures ActiveId(user) == "" ==> L' == L
    ensures ActiveId(user) != "" ==> L' == ClockIn(L, ActiveId(user), c, freshId)
  {
    if user.Some? && user.value.id != "" then ClockIn(L, user.value.id, c, freshId) else L
  }

  /** `handleClockOut()`. */
  function HandleClockOut(L: Ledger, user: Option<User>, c: Clock): (L': Ledger)
    ensures ActiveId(user) == "" ==> L' == L
    ensures ActiveId(user) != "" ==> L' == ClockOut(L, ActiveId(user), c)
  {
    if user.Some? && user.value.id != "" then ClockOut(L, user.value.id, c) else L
  }

  /** When clocking in is a no-op, today's record already has a clock-in time. */
  lemma ClockInNoOpMeansClockedIn(L: Ledger, u: UserId, c: Clock, freshId: RecordId)
    requires ClockIn(L, u, c, freshId) == L
    ensures HasClockedIn(L, u, c.today)
  {
    if !HasClockedIn(L, u, c.today) {
      var kept := Filter(L, OtherKey(u, c.today));
      assert L == kept + [NewRecord(u, c, freshId)];
      assert IsFor(L[|L| - 1], u, c.today);
    }
  }

  /** The clock-in button is enabled exactly when pressing it changes the ledger. */
  lemma ClockInButtonMatchesEffect(L: Ledger, user: Option<User>, c: Clock, freshId: RecordId)
    requires ActiveId(user) != ""
    ensures CanClockIn(L, user, c.today) <==> HandleClockIn(L, user, c, freshId) != L
  {
    if HandleClockIn(L, user, c, freshId) == L {
      ClockInNoOpMeansClockedIn(L, ActiveId(user), c, freshId);
    }
  }

  /** The clock-out button is enabled exactly when pressing it changes the ledger. */
  lemma ClockOutButtonMatchesEffect(L: Ledger, user: Option<User>, c: Clock)
    requires ActiveId(user) != ""
    ensures CanClockOut(L, user, c.today) <==> HandleClockOut(L, user, c) != L
  {
    var u := ActiveId(user);
    if CanClose(L, u, c.today) {
      var i := FindIndex(L, u, c.today).value;
      assert ClockOut(L, u, c)[i].clockOut.Some?;
    }
  }

  /** The weekly hours tile (`getWeeklyHours(user?.id || '')`): 0 when the signed-in user has no
      record from this week's Sunday up to today, and in particular for nobody signed in when
      every record carries a user id. */
  function WeeklyHoursShown(L: Ledger, user: Option<User>, today: Date): (h: Hundredths)
    ensures (forall i :: 0 <= i < |L| ==> !InWeekSoFar(L[i], ActiveId(user), today)) ==> h == 0
  {
    var p := WeekSoFar(ActiveId(user), today);
    assert (forall i :: 0 <= i < |L| ==> !p(L[i])) ==> Filter(L, p) == [] by {
      if forall i :: 0 <= i < |L| ==> !p(L[i]) {
        FilterKeepsNone(L, p);
      }
    }
    WeeklyHours(L, ActiveId(user), today)
  }

  /** Pressing 'Clock Out' raises the tile by exactly the elapsed time of today's record, rounded
      to hundredths: the open record counted nothing and the closed one counts its hours. */
  lemma ClockOutRaisesWeeklyHours(L: Ledger, user: Option<User>, c: Clock)
    requires WellFormed(L) && ActiveId(user) != "" && CanClockOut(L, user, c.today)
    ensures var open := TodaysAttendance(L, ActiveId(user), c.today).value;
      WeeklyHoursShown(HandleClockOut(L, user, c), user, c.today) ==
      WeeklyHoursShown(L, user, c.today) + HundredthsBetween(open.clockIn.value, c.now)
  {
    var u := ActiveId(user);
    var i := FindIndex(L, u, c.today).value;
    ClockOutIsUpdate(L, u, c);
    assert Consistent(L[i]);
    WeeklyHoursUpdate(L, i, ClosedRecord(L[i], c.now), u, c.today);
  }

  /** The admin's pending-leave count; 0 for anyone else. */
  function PendingLeaves(leaves: Leaves, user: Option<User>): (n: nat)
    ensures !IsAdmin(user) ==> n == 0
    ensures IsAdmin(user) ==> n == CountStatus(leaves, Pending)
    ensures n <= |leaves|
  {
    if IsAdmin(user) then CountStatus(leaves, Pending) else 0
  }

  /** A new request raises the admin's pending count by one. */
  lemma ApplyLeaveRaisesPending(leaves: Leaves, user: Option<User>, f: LeaveForm, now: Instant, freshId: RecordId)
    requires IsAdmin(user)
    ensures PendingLeaves(ApplyLeave(leaves, f, now, freshId), user) == PendingLeaves(leaves, user) + 1
  {
    FilterSnoc(leaves, NewRequest(f, now, freshId), HasStatus(Pending));
  }

  /** An approval of a pending request lowers the admin's pending count by one when the id is
      unique in the ledger. */
  lemma ApproveLowersPending(leaves: Leaves, user: Option<User>, i: nat, approver: UserId, now: Instant)
    requires IsAdmin(user)
    requires i < |leaves| && leaves[i].status == Pending
    requires forall j :: 0 <= j < |leaves| && j != i ==> leaves[j].id != leaves[i].id
    ensures PendingLeaves(ApproveLeave(leaves, leaves[i].id, approver, now), user) + 1 == PendingLeaves(leaves, user)
  {
    var L' := ApproveLeave(leaves, leaves[i].id, approver, now);
    assert leaves == leaves[..i] + [leaves[i]] + leaves[i + 1..];
    assert L' == L'[..i] + [L'[i]] + L'[i + 1..];
    assert L'[..i] == leaves[..i];
    assert L'[i + 1..] == leaves[i + 1..];
    FilterAppend(leaves[..i] + [leaves[i]], leaves[i + 1..], HasStatus(Pending));
    FilterAppend(leaves[..i], [leaves[i]], HasStatus(Pending));
    FilterAppend(L'[..i] + [L'[i]], L'[i + 1..], HasStatus(Pending));
    FilterAppend(L'[..i], [L'[i]], HasStatus(Pending));
  }

  function DatedOn(d: Date): AttendanceRecord -> bool {
    (r: AttendanceRecord) => r.date == d
  }

  /** The admin's count of records dated today; 0 for anyone else. */
  function TodayAttendance(L: Ledger, user: Option<User>, today: Date): (n: nat)
    ensures !IsAdmin(user) ==> n == 0
    ensures IsAdmin(user) ==> n == |Filter(L, DatedOn(today))|
  {
    if IsAdmin(user) then |Filter(L, DatedOn(today))| else 0
  }

  /** A first clock-in of the day adds one to the admin's count of today's records. */
  lemma FirstClockInRaisesTodayAttendance(L: Ledger, admin: Option<User>, u: UserId, c: Clock, freshId: RecordId)
    requires IsAdmin(admin)
    requires PhaseOf(L, u, c.today) == NoRecord
    ensures TodayAttendance(ClockIn(L, u, c, freshId), admin, c.today) == TodayAttendance(L, admin, c.today) + 1
  {
    assert TodaysAttendance(L, u, c.today).None?;
    FilterKeepsAll(L, OtherKey(u, c.today));
    FilterSnoc(L, NewRecord(u, c, freshId), DatedOn(c.today));
  }
}

=== FILE: directory.dfy ===
/** The employee lists the pages look names up in
    (`employees.find(emp => emp.id === id)?.name || 'Unknown'`). The pages hard-code these
    lists; here the list is a parameter. */
module Directory {
  import opened Wrappers
  import opened Seqs
  import opened Types

  datatype Employee = Employee(id: UserId, name: string)

  /** Index of the first employee with the id, if any. */
  function FindEmployee(employees: seq<Employee>, id: UserId): (r: Option<nat>)
    ensures r.Some? ==> r.value < |employees| && employees[r.value].id == id
    ensures r.Some? ==> forall j :: 0 <= j < r.value ==> employees[j].id != id
    ensures r.None? <==> forall j :: 0 <= j < |employees| ==> employees[j].id != id
  {
    FindFirst(employees, (e: Employee) => e.id == id)
  }

  const Unknown := "Unknown"

  /** The name of the first employee with the id; 'Unknown' when there is none or the name is
      empty (an empty string is falsy). */
  function DisplayName(employees: seq<Employee>, id: UserId): (name: string)
    ensures name != ""
    ensures (forall j :: 0 <= j < |employees| ==> employees[j].id != id) ==> name == Unknown
    ensures name == Unknown || exists j :: 0 <= j < |employees| && employees[j].id == id && employees[j].name == name
    ensures forall j ::
      (0 <= j < |employees| && employees[j].id == id && employees[j].name != "" &&
       (forall k :: 0 <= k < j ==> employees[k].id != id))
      ==> name == employees[j].name
    ensures forall j ::
      (0 <= j < |employees| && employees[j].id == id && employees[j].name == "" &&
       (forall k :: 0 <= k < j ==> employees[k].id != id))
      ==> name == Unknown
  {
    match FindEmployee(employees, id)
    case None => Unknown
    case Some(i) => if employees[i].name != "" then employees[i].name else Unknown
  }
}

=== FILE: leave_ledger.dfy ===
/** The leave ledger of the front end's data context: applying for leave appends a pending
    request; approving and rejecting rewrite every request with the given id. Neither step
    validates anything: dates are not compared, the reason may be empty, and a decided request
    can be decided again. */
module LeaveLedger {
  import opened Wrappers
  import opened Seqs
  import opened Calendar
  import opened Types

  type Leaves = seq<LeaveRequest>

  /** The caller's part of a request: `Omit<LeaveRequest, 'id' | 'appliedDate' | 'status'>`.
      The two decision fields are part of it in the type but never supplied by the form. */
  datatype LeaveForm = LeaveForm(userId: UserId, kind: LeaveType, startDate: Date, endDate: Date, reason: string)

  function NewRequest(f: LeaveForm, now: Instant, freshId: RecordId): LeaveRequest {
    LeaveRequest(freshId, f.userId, f.kind, f.startDate, f.endDate, f.reason, Pending, now, None, None)
  }

  /** `applyLeave(request)`: appends one pending request carrying the form's fields. */
  function ApplyLeave(L: Leaves, f: LeaveForm, now: Instant, freshId: RecordId): (L': Leaves)
    ensures |L'| == |L| + 1
    ensures L'[..|L|] == L
    ensures var n := L'[|L|];
      && n.id == freshId && n.userId == f.userId && n.kind == f.kind
      && n.startDate == f.startDate && n.endDate == f.endDate && n.reason == f.reason
      && n.status == Pending && n.appliedDate == now
      && n.approvedBy.None? && n.approvedDate.None?
  {
    L + [NewRequest(f, now, freshId)]
  }

  /** The decision fields a decision writes into a request. */
  function Decided(r: LeaveRequest, s: LeaveStatus, approver: UserId, now: Instant): LeaveRequest {
    r.(status := s, approvedBy := Some(approver), approvedDate := Some(now))
  }

  /** `prev.map(leave => leave.id === leaveId ? { ...leave, status, approvedBy, approvedDate } : leave)`. */
  function Decide(L: Leaves, leaveId: RecordId, s: LeaveStatus, approver: UserId, now: Instant): (L': Leaves)
    ensures |L'| == |L|
    ensures forall i :: 0 <= i < |L| && L[i].id == leaveId ==> L'[i] == Decided(L[i], s, approver, now)
    ensures forall i :: 0 <= i < |L| && L[i].id != leaveId ==> L'[i] == L[i]
  {
    if |L| == 0 then []
    else [if L[0].id == leaveId then Decided(L[0], s, approver, now) else L[0]]
         + Decide(L[1..], leaveId, s, approver, now)
  }

  /** `approveLeave(leaveId, approvedBy)`. */
  function ApproveLeave(L: Leaves, leaveId: RecordId, approver: UserId, now: Instant): (L': Leaves)
    ensures |L'| == |L|
    ensures forall i :: 0 <= i < |L| && L[i].id == leaveId ==>
      L'[i].status == Approved && L'[i].approvedBy == Some(approver) && L'[i].approvedDate == Some(now)
    ensures forall i :: 0 <= i < |L| ==> L[i].id != leaveId ==> L'[i] == L[i]
  {
    Decide(L, leaveId, Approved, approver, now)
  }

  /** `rejectLeave(leaveId, approvedBy)`: the same rewrite with status rejected. */
  function RejectLeave(L: Leaves, leaveId: RecordId, approver: UserId, now: Instant): (L': Leaves)
    ensures |L'| == |L|
    ensures forall i :: 0 <= i < |L| && L[i].id == leaveId ==>
      L'[i].status == Rejected && L'[i].approvedBy == Some(approver) && L'[i].approvedDate == Some(now)
    ensures forall i :: 0 <= i < |L| ==> L[i].id != leaveId ==> L'[i] == L[i]
  {
    Decide(L, leaveId, Rejected, approver, now)
  }

  predicate HasId(L: Leaves, leaveId: RecordId) {
    exists i :: 0 <= i < |L| && L[i].id == leaveId
  }

  /** A decision on an id that is not in the ledger leaves it unchanged; whatever the id, it keeps
      every field of every request except the three decision fields. */
  lemma DecideUnknownIdIsNoOp(L: Leaves, leaveId: RecordId, s: LeaveStatus, approver: UserId, now: Instant)
    ensures !HasId(L, leaveId) ==> Decide(L, leaveId, s, approver, now) == L
    ensures forall i :: 0 <= i < |L| ==>
      var r' := Decide(L, leaveId, s, approver, now)[i];
      && r'.id == L[i].id && r'.userId == L[i].userId && r'.kind == L[i].kind
      && r'.startDate == L[i].startDate && r'.endDate == L[i].endDate
      && r'.reason == L[i].reason && r'.appliedDate == L[i].appliedDate
  {
  }

  /** A decision does not look at the current status: deciding an already decided request
      overwrites its status, approver and date. */
  lemma DecisionsAreNotFinal(r: LeaveRequest, approver1: UserId, approver2: UserId, t1: Instant, t2: Instant)
    requires r.status == Pending
    ensures var L := RejectLeave(ApproveLeave([r], r.id, approver1, t1), r.id, approver2, t2);
      L == [Decided(r, Rejected, approver2, t2)]
  {
  }

  /** No check on the request: a leave ending before it starts, with an empty reason, is stored. */
  lemma ApplyLeaveDoesNotValidate(L: Leaves, u: UserId, now: Instant, freshId: RecordId)
    ensures var f := LeaveForm(u, Casual, Date(2024, 1, 25), Date(2024, 1, 20), "");
      ApplyLeave(L, f, now, freshId)[|L|].status == Pending
  {
  }

  /** The decision fields are both absent while pending and both present otherwise. */
  predicate DecisionFieldsMatch(r: LeaveRequest) {
    (r.status == Pending) <==> (r.approvedBy.None? && r.approvedDate.None?)
  }

  predicate AllDecisionFieldsMatch(L: Leaves) {
    forall i :: 0 <= i < |L| ==> DecisionFieldsMatch(L[i])
  }

  /** Applying keeps the decision-field invariant; so does a decision, except that deciding with
      status pending is not something the ledger offers (only approve and reject exist). */
  lemma LeaveOperationsKeepDecisionFields(L: Leaves, f: LeaveForm, now: Instant, freshId: RecordId,
                                          leaveId: RecordId, approver: UserId)
    requires AllDecisionFieldsMatch(L)
    ensures AllDecisionFieldsMatch(ApplyLeave(L, f, now, freshId))
    ensures AllDecisionFieldsMatch(ApproveLeave(L, leaveId, approver, now))
    ensures AllDecisionFieldsMatch(RejectLeave(L, leaveId, approver, now))
  {
  }

  function RequestedBy(u: UserId): LeaveRequest -> bool {
    (l: LeaveRequest) => l.userId == u
  }

  function HasStatus(s: LeaveStatus): LeaveRequest -> bool {
    (l: LeaveRequest) => l.status == s
  }

  /** The number of requests with the status. */
  function CountStatus(s: seq<LeaveRequest>, st: LeaveStatus): nat {
    |Filter(s, HasStatus(st))|
  }

  function OtherId(leaveId: RecordId): LeaveRequest -> bool {
    (r: LeaveRequest) => r.id != leaveId
  }

  /** Requests with other ids are, as a sequence, untouched by a decision. */
  lemma {:induction false} DecideKeepsOthers(L: Leaves, leaveId: RecordId, s: LeaveStatus, approver: UserId, now: Instant)
    ensures Filter(Decide(L, leaveId, s, approver, now), OtherId(leaveId)) == Filter(L, OtherId(leaveId))
  {
    if |L| > 0 {
      DecideKeepsOthers(L[1..], leaveId, s, approver, now);
      assert Decide(L, leaveId, s, approver, now)[1..] == Decide(L[1..], leaveId, s, approver, now);
    }
  }
}

=== FILE: leave_view.dfy ===
/** The leave page: which requests a user sees, the apply form and its submission, and the
    admin's approve and reject controls. */
module LeaveView {
  import opened Wrappers
  import opened Seqs
  import opened Calendar
  import opened Types
  import opened Directory
  import opened LeaveLedger

  /** `filteredLeaves`: every request for an admin, the user's own otherwise; nobody signed in
      matches no request. */
  function VisibleLeaves(leaves: Leaves, user: Option<User>): (v: Leaves)
    ensures IsAdmin(user) ==> v == leaves
    ensures user.None? ==> v == []
    ensures user.Some? && !IsAdmin(user) ==>
      forall l :: l in v <==> l in leaves && l.userId == user.value.id
    ensures user.Some? && !IsAdmin(user) ==>
      forall l :: multiset(v)[l] == if l.userId == user.value.id then multiset(leaves)[l] else 0
  {
    match user
    case None => []
    case Some(u) =>
      if u.role == Admin then leaves
      else
        FilterMultiset(leaves, RequestedBy(u.id));
        Filter(leaves, RequestedBy(u.id))
  }

  /** The list grows with the ledger in ledger order: a request appended to the ledger is appended
      to the list exactly when the list shows it. With `VisibleLeaves([]) == []`, this fixes the
      list, order and multiplicity included, for every ledger. */
  lemma VisibleLeavesSnoc(leaves: Leaves, l: LeaveRequest, user: Option<User>)
    ensures VisibleLeaves([], user) == []
    ensures VisibleLeaves(leaves + [l], user) == VisibleLeaves(leaves, user) +
      (if IsAdmin(user) || (user.Some? && l.userId == user.value.id) then [l] else [])
  {
    if user.Some? && !IsAdmin(user) {
      FilterSnoc(leaves, l, RequestedBy(user.value.id));
    }
  }

  /** The 'Apply for Leave' button is offered to everyone but an admin. */
  function CanApplyForLeave(user: Option<User>): (b: bool)
    ensures b <==> user.None? || user.value.role == Role.Employee
  {
    !IsAdmin(user)
  }

  /** Approve and reject are shown to an admin, and only on pending requests. */
  function ShowDecisionControls(user: Option<User>, l: LeaveRequest): (b: bool)
    ensures b <==> user.Some? && user.value.role == Admin && l.status == Pending
  {
    IsAdmin(user) && l.status == Pending
  }

  /** `getEmployeeName(userId)`: only an admin's page has an employee list, so for anyone else
      every name shows as 'Unknown'. */
  function EmployeeName(user: Option<User>, employees: seq<Employee>, u: UserId): (name: string)
    ensures !IsAdmin(user) ==> name == Unknown
    ensures IsAdmin(user) ==> name == DisplayName(employees, u)
  {
    DisplayName(if IsAdmin(user) then employees else [], u)
  }

  // ---------------------------------------------------------------------------------------
  // The apply form

  /** The form's fields; an empty date input is `None`. */
  datatype FormData = FormData(kind: LeaveType, startDate: Option<Date>, endDate: Option<Date>, reason: string)

  const EmptyForm := FormData(Casual, None, None, "")

  datatype PageState = PageState(form: FormData, showApplyForm: bool)

  /** The `required` inputs: the browser submits only with both dates and a reason filled in. */
  predicate Submittable(f: FormData) {
    f.startDate.Some? && f.endDate.Some? && f.reason != ""
  }

  datatype Submission = Submission(leaves: Leaves, state: PageState)

  /** `handleSubmit`: with a signed-in user, applies for the leave, then resets the form to a
      casual leave with empty fields and hides it. Without a user, or with an incomplete form
      (which the browser does not submit), nothing changes. */
  function HandleSubmit(leaves: Leaves, st: PageState, user: Option<User>, now: Instant, freshId: RecordId): (r: Submission)
    ensures !Submittable(st.form) || ActiveId(user) == "" ==> r == Submission(leaves, st)
    ensures Submittable(st.form) && ActiveId(user) != "" ==>
      && r.state == PageState(EmptyForm, false)
      && r.leaves == ApplyLeave(leaves, LeaveForm(ActiveId(user), st.form.kind, st.form.startDate.value,
                                                  st.form.endDate.value, st.form.reason), now, freshId)
  {
    if !Submittable(st.form) || ActiveId(user) == "" then Submission(leaves, st)
    else
      var f := LeaveForm(ActiveId(user), st.form.kind, st.form.startDate.value, st.form.endDate.value, st.form.reason);
      Submission(ApplyLeave(leaves, f, now, freshId), PageState(EmptyForm, false))
  }

  /** After an employee submits, their list is the old list followed by the new pending request. */
  lemma SubmittedRequestIsVisible(leaves: Leaves, st: PageState, u: User, now: Instant, freshId: RecordId)
    requires u.role == Role.Employee && u.id != "" && Submittable(st.form)
    ensures var r := HandleSubmit(leaves, st, Some(u), now, freshId);
      var v := VisibleLeaves(r.leaves, Some(u));
      && |v| == |VisibleLeaves(leaves, Some(u))| + 1
      && v[..|v| - 1] == VisibleLeaves(leaves, Some(u))
      && v[|v| - 1].status == Pending && v[|v| - 1].id == freshId && v[|v| - 1].reason == st.form.reason
  {
    var f := LeaveForm(u.id, st.form.kind, st.form.startDate.value, st.form.endDate.value, st.form.reason);
    FilterSnoc(leaves, NewRequest(f, now, freshId), RequestedBy(u.id));
  }

  // ---------------------------------------------------------------------------------------
  // Decisions

  /** `handleApprove(leaveId)`: approves in the signed-in user's name. */
  function HandleApprove(leaves: Leaves, user: Option<User>, leaveId: RecordId, now: Instant): (L': Leaves)
    ensures ActiveId(user) == "" ==> L' == leaves
    ensures ActiveId(user) != "" ==> L' == ApproveLeave(leaves, leaveId, ActiveId(user), now)
  {
    if ActiveId(user) != "" then ApproveLeave(leaves, leaveId, ActiveId(user), now) else leaves
  }

  /** `handleReject(leaveId)`. */
  function HandleReject(leaves: Leaves, user: Option<User>, leaveId: RecordId, now: Instant): (L': Leaves)
    ensures ActiveId(user) == "" ==> L' == leaves
    ensures ActiveId(user) != "" ==> L' == RejectLeave(leaves, leaveId, ActiveId(user), now)
  {
    if ActiveId(user) != "" then RejectLeave(leaves, leaveId, ActiveId(user), now) else leaves
  }

  /** An admin's approval through the page decides the request in the admin's name, after which
      its controls are gone; every request with another id is untouched. */
  lemma ApproveThroughPage(leaves: Leaves, admin: User, i: nat, now: Instant)
    requires admin.role == Admin && admin.id != ""
    requires i < |leaves| && ShowDecisionControls(Some(admin), leaves[i])
    ensures var L' := HandleApprove(leaves, Some(admin), leaves[i].id, now);
      && L'[i].status == Approved && L'[i].approvedBy == Some(admin.id) && L'[i].approvedDate == Some(now)
      && !ShowDecisionControls(Some(admin), L'[i])
      && forall j :: 0 <= j < |leaves| && leaves[j].id != leaves[i].id ==> L'[j] == leaves[j]
  {
  }

  /** Likewise for a rejection. */
  lemma RejectThroughPage(leaves: Leaves, admin: User, i: nat, now: Instant)
    requires admin.role == Admin && admin.id != ""
    requires i < |leaves| && ShowDecisionControls(Some(admin), leaves[i])
    ensures var L' := HandleReject(leaves, Some(admin), leaves[i].id, now);
      && L'[i].status == Rejected && L'[i].approvedBy == Some(admin.id) && L'[i].approvedDate == Some(now)
      && !ShowDecisionControls(Some(admin), L'[i])
      && forall j :: 0 <= j < |leaves| && leaves[j].id != leaves[i].id ==> L'[j] == leaves[j]
  {
  }
}

=== FILE: product.dfy ===
/** The product schema's numeric rules and its pre-save hook, which recomputes the average
    rating and the review count whenever the reviews were modified. JavaScript numbers become
    reals, with NaN made explicit. */
module Product {
  import opened Wrappers

  /** A JavaScript number as the hook can produce it: a finite value, or NaN from 0 / 0. */
  datatype Num = Finite(value: real) | NaN

  datatype Image = Image(url: string, publicId: string)

  datatype Review = Review(user: string, rating: real, comment: string, name: string, createdAt: int)

  datatype Product = Product(
    name: string,
    description: string,
    price: real,
    category: string,
    images: seq<Image>,
    stock: real,
    ratings: Num,
    numReviews: int,
    reviews: seq<Review>,
    createdAt: int)

  // ---------------------------------------------------------------------------------------
  // Schema

  /** What a new document is given; the fields with defaults may be left out. */
  datatype ProductInput = ProductInput(
    name: string, description: string, price: real, category: string, images: seq<Image>,
    stock: Option<real>, ratings: Option<real>, numReviews: Option<int>, reviews: seq<Review>,
    createdAt: Option<int>)

  /** A new document: stock, ratings and review count default to 0, and `createdAt` defaults to
      the clock's `Date.now`; every given field is kept. */
  function Create(input: ProductInput, now: int): (p: Product)
    ensures input.stock.None? ==> p.stock == 0.0
    ensures input.ratings.None? ==> p.ratings == Finite(0.0)
    ensures input.numReviews.None? ==> p.numReviews == 0
    ensures input.stock.Some? ==> p.stock == input.stock.value
    ensures input.ratings.Some? ==> p.ratings == Finite(input.ratings.value)
    ensures input.numReviews.Some? ==> p.numReviews == input.numReviews.value
    ensures p.name == input.name && p.price == input.price && p.reviews == input.reviews
    ensures p.description == input.description && p.category == input.category && p.images == input.images
    ensures input.createdAt.None? ==> p.createdAt == now
    ensures input.createdAt.Some? ==> p.createdAt == input.createdAt.value
  {
    Product(input.name, input.description, input.price, input.category, input.images,
            input.stock.GetOr(0.0), Finite(input.ratings.GetOr(0.0)),
            input.numReviews.GetOr(0), input.reviews, input.createdAt.GetOr(now))
  }

  predicate ValidReview(r: Review) {
    r.user != "" && r.comment != "" && r.name != ""
  }

  /** The schema's validators: the required strings are non-empty, price and stock are at least
      0, and every image and review has its required fields. */
  predicate Valid(p: Product) {
    && p.name != "" && p.description != "" && p.category != ""
    && p.price >= 0.0 && p.stock >= 0.0
    && (forall i :: 0 <= i < |p.images| ==> p.images[i].url != "" && p.images[i].publicId != "")
    && (forall i :: 0 <= i < |p.reviews| ==> ValidReview(p.reviews[i]))
  }

  /** Defaults never make a document invalid: an input valid in its given fields is valid once
      created. */
  lemma DefaultsAreValid(input: ProductInput, now: int)
    requires input.name != "" && input.description != "" && input.category != ""
    requires input.price >= 0.0 && (input.stock.Some? ==> input.stock.value >= 0.0)
    requires forall i :: 0 <= i < |input.images| ==> input.images[i].url != "" && input.images[i].publicId != ""
    requires forall i :: 0 <= i < |input.reviews| ==> ValidReview(input.reviews[i])
    ensures Valid(Create(input, now))
  {
  }

  // ---------------------------------------------------------------------------------------
  // The pre-save hook

  /** `reviews.reduce((sum, review) => sum + review.rating, 0)`. */
  function SumRatings(rs: seq<Review>): real {
    if |rs| == 0 then 0.0 else SumRatings(rs[..|rs| - 1]) + rs[|rs| - 1].rating
  }

  /** `totalRatings / reviews.length`: NaN for no reviews. */
  function Average(rs: seq<Review>): (a: Num)
    ensures |rs| == 0 <==> a == NaN
    ensures a.Finite? ==> a.value * (|rs| as real) == SumRatings(rs)
  {
    if |rs| == 0 then NaN else Finite(SumRatings(rs) / (|rs| as real))
  }

  /** The hook: with the reviews unmodified, nothing changes; otherwise the ratings become the
      reviews' mean (NaN when there are none) and the count their number, and no other field
      changes. */
  function PreSave(p: Product, reviewsModified: bool): (q: Product)
    ensures !reviewsModified ==> q == p
    ensures reviewsModified ==> q.numReviews == |p.reviews|
    ensures reviewsModified && |p.reviews| > 0 ==>
      q.ratings.Finite? && q.ratings.value * (|p.reviews| as real) == SumRatings(p.reviews)
    ensures reviewsModified && |p.reviews| == 0 ==> q.ratings == NaN
    ensures q.(ratings := p.ratings, numReviews := p.numReviews) == p
  {
    if !reviewsModified then p
    else p.(ratings := Average(p.reviews), numReviews := |p.reviews|)
  }

  /** Saving again after a recomputation changes nothing. */
  lemma PreSaveIsIdempotent(p: Product, modified: bool)
    ensures PreSave(PreSave(p, true), modified) == PreSave(p, true)
  {
  }

  lemma {:induction false} SumRatingsBounds(rs: seq<Review>, lo: real, hi: real)
    requires forall i :: 0 <= i < |rs| ==> lo <= rs[i].rating <= hi
    ensures (|rs| as real) * lo <= SumRatings(rs) <= (|rs| as real) * hi
  {
    if |rs| > 0 {
      SumRatingsBounds(rs[..|rs| - 1], lo, hi);
    }
  }

  /** The recomputed rating lies within the reviews' rating range. */
  lemma AverageWithinRange(p: Product, lo: real, hi: real)
    requires |p.reviews| > 0
    requires forall i :: 0 <= i < |p.reviews| ==> lo <= p.reviews[i].rating <= hi
    ensures var q := PreSave(p, true); lo <= q.ratings.value <= hi
  {
    SumRatingsBounds(p.reviews, lo, hi);
    var n := |p.reviews| as real;
    var a := PreSave(p, true).ratings.value;
    assert a * n == SumRatings(p.reviews);
  }

  /** Adding a review and saving adds its rating to the total the average stands for. */
  lemma AddReviewThenSave(p: Product, r: Review)
    ensures var q := PreSave(p.(reviews := p.reviews + [r]), true);
      && q.numReviews == |p.reviews| + 1
      && q.ratings.value * ((|p.reviews| + 1) as real) == SumRatings(p.reviews) + r.rating
  {
    var rs := p.reviews + [r];
    assert rs[..|rs| - 1] == p.reviews;
  }
}

=== FILE: reports.dfy ===
/** The reports page: an admin-only view of monthly attendance statistics, leave statistics and
    the rows of the CSV export, all for the selected month and, optionally, one employee. */
module Reports {
  import opened Wrappers
  import opened Seqs
  import opened Calendar
  import opened Types
  import opened Directory
  import opened AttendanceLedger
  import opened LeaveLedger

  // ---------------------------------------------------------------------------------------
  // Admin gate

  /** Whether the page renders the report or the access-denied panel (`user?.role !== 'admin'`). */
  datatype Access = AccessDenied | ReportShown

  function ReportAccess(user: Option<User>): (a: Access)
    ensures a == ReportShown <==> user.Some? && user.value.role == Admin
    ensures user.None? ==> a == AccessDenied
  {
    match user
    case Some(u) => if u.role == Admin then ReportShown else AccessDenied
    case None => AccessDenied
  }

  // ---------------------------------------------------------------------------------------
  // Monthly statistics

  /** The month's records, restricted to the selected employee when one is selected ('' means
      all employees). */
  function SelectedRecords(L: Ledger, ym: YearMonth, employee: UserId): seq<AttendanceRecord> {
    var inMonth := Filter(L, DatedIn(ym));
    if employee != "" then Filter(inMonth, ByUser(employee)) else inMonth
  }

  predicate IsSelected(r: AttendanceRecord, ym: YearMonth, employee: UserId) {
    InMonth(r.date, ym) && (employee == "" || r.userId == employee)
  }

  function Selected(ym: YearMonth, employee: UserId): AttendanceRecord -> bool {
    r => IsSelected(r, ym, employee)
  }

  /** The selection is one filter by month-and-employee. */
  lemma SelectedRecordsIsOneFilter(L: Ledger, ym: YearMonth, employee: UserId)
    ensures SelectedRecords(L, ym, employee) == Filter(L, Selected(ym, employee))
  {
    if employee != "" {
      FilterConjunction(L, DatedIn(ym), ByUser(employee), Selected(ym, employee));
    } else {
      assert forall x :: Selected(ym, employee)(x) == DatedIn(ym)(x);
      FilterConjunction(L, DatedIn(ym), DatedIn(ym), Selected(ym, employee));
      FilterIdempotent(L, DatedIn(ym));
    }
  }

  datatype MonthlyStats = MonthlyStats(
    workingDays: nat,
    presentDays: nat,
    totalHours: Hundredths,
    avgHoursPerDay: real,
    attendanceRate: real)

  /** Hundredths of an hour as hours. */
  function AsHours(h: Hundredths): real {
    h as real / 100.0
  }

  /** `avg` is `hours` spread evenly over `days`. */
  predicate IsMean(avg: real, hours: real, days: nat) {
    avg * (days as real) == hours
  }

  /** Hours per present day, 0 when there is no present day. */
  function AverageHours(total: Hundredths, presentDays: nat): (avg: real)
    ensures presentDays == 0 ==> avg == 0.0
    ensures presentDays > 0 ==> IsMean(avg, AsHours(total), presentDays)
  {
    if presentDays > 0 then AsHours(total) / presentDays as real else 0.0
  }

  /** Present days as a percentage of working days, 0 when there are no working days. */
  function AttendanceRate(presentDays: nat, workingDays: nat): (rate: real)
    ensures workingDays > 0 ==> IsMean(rate, 100.0 * (presentDays as real), workingDays)
    ensures presentDays == 0 ==> rate == 0.0
    ensures workingDays == 0 ==> rate == 0.0
  {
    if workingDays > 0 then (presentDays as real / workingDays as real) * 100.0 else 0.0
  }

  /** `getMonthlyStats()`. Every selected record counts as a present day, whatever its status;
      hours missing from a record count as 0. */
  function GetMonthlyStats(L: Ledger, ym: YearMonth, employee: UserId): (s: MonthlyStats)
    ensures s.workingDays == WorkingDaysInMonth(ym) && 20 <= s.workingDays <= 23
    ensures s.presentDays == |SelectedRecords(L, ym, employee)|
    ensures s.totalHours == SumHours(SelectedRecords(L, ym, employee))
    ensures s.presentDays == 0 ==> s.avgHoursPerDay == 0.0 && s.attendanceRate == 0.0
    ensures s.presentDays > 0 ==> IsMean(s.avgHoursPerDay, AsHours(s.totalHours), s.presentDays)
    ensures IsMean(s.attendanceRate, 100.0 * (s.presentDays as real), s.workingDays)
  {
    var workingDays := WorkingDaysInMonth(ym);
    WorkingDaysInMonthBounds(ym);
    var records := SelectedRecords(L, ym, employee);
    var totalHours := SumHours(records);
    var avg := AverageHours(totalHours, |records|);
    var rate := AttendanceRate(|records|, workingDays);
    MonthlyStats(workingDays, |records|, totalHours, avg, rate)
  }

  /** Over a ledger with nothing in the selection every statistic but the working days is 0. */
  lemma MonthlyStatsOfEmptySelection(ym: YearMonth, employee: UserId)
    ensures var s := GetMonthlyStats([], ym, employee);
      s.presentDays == 0 && s.totalHours == 0 && s.avgHoursPerDay == 0.0 && s.attendanceRate == 0.0
  {
  }

  /** Appending a record changes the present days by one and the total by the record's hours
      exactly when the record is in the selection, whatever its status (an absent record counts
      as a present day). With the empty case this determines both statistics. */
  lemma MonthlyStatsSnoc(L: Ledger, r: AttendanceRecord, ym: YearMonth, employee: UserId)
    ensures GetMonthlyStats(L + [r], ym, employee).presentDays ==
      GetMonthlyStats(L, ym, employee).presentDays + (if IsSelected(r, ym, employee) then 1 else 0)
    ensures GetMonthlyStats(L + [r], ym, employee).totalHours ==
      GetMonthlyStats(L, ym, employee).totalHours + (if IsSelected(r, ym, employee) then HoursOf(r) else 0)
  {
    SelectedRecordsIsOneFilter(L, ym, employee);
    SelectedRecordsIsOneFilter(L + [r], ym, employee);
    FilterSnoc(L, r, Selected(ym, employee));
    SumHoursAppend(Filter(L, Selected(ym, employee)), [r]);
  }

  // ---------------------------------------------------------------------------------------
  // Leave statistics

  /** A leave is in the month when its start or its end date is. */
  predicate TouchesMonth(l: LeaveRequest, ym: YearMonth) {
    InMonth(l.startDate, ym) || InMonth(l.endDate, ym)
  }

  function LeaveTouches(ym: YearMonth): LeaveRequest -> bool {
    l => TouchesMonth(l, ym)
  }

  function SelectedLeaves(leaves: seq<LeaveRequest>, ym: YearMonth, employee: UserId): seq<LeaveRequest> {
    var inMonth := Filter(leaves, LeaveTouches(ym));
    if employee != "" then Filter(inMonth, RequestedBy(employee)) else inMonth
  }

  datatype LeaveStats = LeaveStats(totalLeaves: nat, approvedLeaves: nat, pendingLeaves: nat, rejectedLeaves: nat)

  /** Every request has exactly one of the three statuses. */
  lemma {:induction false} StatusCountsPartition(s: seq<LeaveRequest>)
    ensures CountStatus(s, Approved) + CountStatus(s, Pending) + CountStatus(s, Rejected) == |s|
  {
    if |s| > 0 {
      StatusCountsPartition(s[1..]);
    }
  }

  /** `getLeaveStats()`: the three status counts of the month's (and employee's) requests add up
      to their total. */
  function GetLeaveStats(leaves: seq<LeaveRequest>, ym: YearMonth, employee: UserId): (s: LeaveStats)
    ensures s.totalLeaves == |SelectedLeaves(leaves, ym, employee)|
    ensures s.approvedLeaves + s.pendingLeaves + s.rejectedLeaves == s.totalLeaves
    ensures s.approvedLeaves == CountStatus(SelectedLeaves(leaves, ym, employee), Approved)
    ensures s.pendingLeaves == CountStatus(SelectedLeaves(leaves, ym, employee), Pending)
    ensures s.rejectedLeaves == CountStatus(SelectedLeaves(leaves, ym, employee), Rejected)
  {
    var sel := SelectedLeaves(leaves, ym, employee);
    StatusCountsPartition(sel);
    LeaveStats(|sel|, CountStatus(sel, Approved), CountStatus(sel, Pending), CountStatus(sel, Rejected))
  }

  /** A leave that starts before the month and ends after it is not counted for the month. */
  lemma LeaveSpanningTheMonthIsNotCounted(l: LeaveRequest)
    requires l.startDate == Date(2023, 12, 31) && l.endDate == Date(2024, 2, 1)
    ensures GetLeaveStats([l], YearMonth(2024, 1), "").totalLeaves == 0
  {
  }

  // ---------------------------------------------------------------------------------------
  // CSV export

  /** A clock cell: the clock time, or '--' when the record has none. */
  datatype ClockCell = At(time: Instant) | Dashes

  datatype CsvRow = CsvRow(employee: string, date: Date, clockIn: ClockCell, clockOut: ClockCell,
                           totalHours: Hundredths, status: AttendanceStatus)

  /** A clock time as the export writes it: the instant, or '--' when there is none. */
  function Cell(t: Option<Instant>): (c: ClockCell)
    ensures c == Dashes <==> t.None?
  {
    match t
    case Some(v) => At(v)
    case None => Dashes
  }

  function RowOf(r: AttendanceRecord, employees: seq<Employee>): CsvRow {
    CsvRow(DisplayName(employees, r.userId), r.date, Cell(r.clockIn), Cell(r.clockOut), HoursOf(r), r.status)
  }

  function Rows(records: seq<AttendanceRecord>, employees: seq<Employee>): (rows: seq<CsvRow>)
    ensures |rows| == |records|
    ensures forall i :: 0 <= i < |records| ==> rows[i] == RowOf(records[i], employees)
  {
    if |records| == 0 then [] else [RowOf(records[0], employees)] + Rows(records[1..], employees)
  }

  /** `handleExportCSV()`: one row per record of the month, in ledger order, whatever employee is
      selected; unknown employees show as 'Unknown', missing clock times as '--', missing hours
      as 0. */
  function CsvRows(L: Ledger, ym: YearMonth, employees: seq<Employee>): (rows: seq<CsvRow>)
    ensures |rows| == |Filter(L, DatedIn(ym))|
    ensures forall i :: 0 <= i < |rows| ==>
      var r := Filter(L, DatedIn(ym))[i];
      && rows[i].date == r.date && InMonth(rows[i].date, ym)
      && rows[i].status == r.status
      && (rows[i].clockIn == Dashes <==> r.clockIn.None?)
      && (rows[i].clockOut == Dashes <==> r.clockOut.None?)
      && (r.clockIn.Some? ==> rows[i].clockIn == At(r.clockIn.value))
      && (r.clockOut.Some? ==> rows[i].clockOut == At(r.clockOut.value))
      && rows[i].totalHours == HoursOf(r)
      && rows[i].employee == DisplayName(employees, r.userId)
  {
    Rows(Filter(L, DatedIn(ym)), employees)
  }

  /** The export ignores the employee filter: it has at least as many rows as the statistics have
      present days for any selection, and exactly as many when all employees are selected. */
  lemma CsvIgnoresEmployeeFilter(L: Ledger, ym: YearMonth, employee: UserId, employees: seq<Employee>)
    ensures |CsvRows(L, ym, employees)| >= GetMonthlyStats(L, ym, employee).presentDays
    ensures employee == "" ==> |CsvRows(L, ym, employees)| == GetMonthlyStats(L, ym, employee).presentDays
  {
  }
}

=== FILE: seqs.dfy ===
/** Order-preserving filtering of sequences: the model of JavaScript's `Array.prototype.filter`,
    which every ledger query and report in the application is built from. */
module Seqs {
  import opened Wrappers

  /** The position of the first element that satisfies `p`, if any: JavaScript's `find`, which
      every look-up by id, email or key in the application is. */
  function FindFirst<T>(s: seq<T>, p: T -> bool): (r: Option<nat>)
    ensures r.Some? ==> r.value < |s| && p(s[r.value])
    ensures r.Some? ==> forall j :: 0 <= j < r.value ==> !p(s[j])
    ensures r.None? <==> forall j :: 0 <= j < |s| ==> !p(s[j])
  {
    if |s| == 0 then None
    else if p(s[0]) then Some(0)
    else
      match FindFirst(s[1..], p)
      case None => None
      case Some(i) => Some(i + 1)
  }

  /** The elements of `s` that satisfy `p`, in their original order. */
  function Filter<T(!new)>(s: seq<T>, p: T -> bool): (r: seq<T>)
    ensures |r| <= |s|
    ensures forall x :: x in r <==> x in s && p(x)
    ensures forall i :: 0 <= i < |r| ==> p(r[i])
  {
    if |s| == 0 then []
    else if p(s[0]) then [s[0]] + Filter(s[1..], p)
    else Filter(s[1..], p)
  }

  /** Filtering distributes over concatenation, so it keeps the relative order of what it keeps. */
  lemma {:induction false} FilterAppend<T(!new)>(a: seq<T>, b: seq<T>, p: T -> bool)
    ensures Filter(a + b, p) == Filter(a, p) + Filter(b, p)
  {
    if |a| == 0 {
      assert a + b == b;
    } else {
      assert (a + b)[1..] == a[1..] + b;
      FilterAppend(a[1..], b, p);
    }
  }

  /** Filtering keeps every passing element as often as it occurs and drops every other one, so
      the result is a sub-multiset of the input. */
  lemma {:induction false} FilterMultiset<T(!new)>(s: seq<T>, p: T -> bool)
    ensures forall x :: multiset(Filter(s, p))[x] == if p(x) then multiset(s)[x] else 0
    ensures multiset(Filter(s, p)) <= multiset(s)
  {
    if |s| > 0 {
      assert s == [s[0]] + s[1..];
      FilterMultiset(s[1..], p);
    }
  }

  lemma FilterSingleton<T(!new)>(y: T, p: T -> bool)
    ensures Filter([y], p) == if p(y) then [y] else []
  {
    assert [y][1..] == [];
  }

  /** Filtering a sequence with a given head decides the head first. */
  lemma FilterCons<T(!new)>(y: T, s: seq<T>, p: T -> bool)
    ensures Filter([y] + s, p) == if p(y) then [y] + Filter(s, p) else Filter(s, p)
  {
    assert ([y] + s)[1..] == s;
  }

  /** Appending one element adds it to the filtered result exactly when it passes. */
  lemma FilterSnoc<T(!new)>(s: seq<T>, x: T, p: T -> bool)
    ensures Filter(s + [x], p) == if p(x) then Filter(s, p) + [x] else Filter(s, p)
  {
    FilterAppend(s, [x], p);
    FilterSingleton(x, p);
  }

  /** A filter that keeps everything is the identity. */
  lemma {:induction false} FilterKeepsAll<T(!new)>(s: seq<T>, p: T -> bool)
    requires forall i :: 0 <= i < |s| ==> p(s[i])
    ensures Filter(s, p) == s
  {
    if |s| > 0 {
      FilterKeepsAll(s[1..], p);
    }
  }

  /** A filter that rejects everything yields the empty sequence. */
  lemma {:induction false} FilterKeepsNone<T(!new)>(s: seq<T>, p: T -> bool)
    requires forall i :: 0 <= i < |s| ==> !p(s[i])
    ensures Filter(s, p) == []
  {
    if |s| > 0 {
      FilterKeepsNone(s[1..], p);
    }
  }

  /** Filtering by `p` and then by a stronger `q` is filtering by `q` alone. */
  lemma {:induction false} FilterNarrow<T(!new)>(s: seq<T>, p: T -> bool, q: T -> bool)
    requires forall x :: q(x) ==> p(x)
    ensures Filter(Filter(s, p), q) == Filter(s, q)
  {
    if |s| > 0 {
      FilterNarrow(s[1..], p, q);
    }
  }

  /** Two successive filters may be applied in either order. */
  lemma {:induction false} FilterCommute<T(!new)>(s: seq<T>, p: T -> bool, q: T -> bool)
    ensures Filter(Filter(s, p), q) == Filter(Filter(s, q), p)
  {
    if |s| > 0 {
      FilterCommute(s[1..], p, q);
    }
  }

  /** Filtering twice by the same predicate changes nothing the second time. */
  lemma FilterIdempotent<T(!new)>(s: seq<T>, p: T -> bool)
    ensures Filter(Filter(s, p), p) == Filter(s, p)
  {
    FilterNarrow(s, p, p);
  }

  /** Filtering by `p` and then by `q` is filtering once by their conjunction. */
  lemma {:induction false} FilterConjunction<T(!new)>(s: seq<T>, p: T -> bool, q: T -> bool, both: T -> bool)
    requires forall x :: both(x) == (p(x) && q(x))
    ensures Filter(Filter(s, p), q) == Filter(s, both)
  {
    if |s| > 0 {
      FilterConjunction(s[1..], p, q, both);
    }
  }

  /** Every two elements of `s`, taken in order, are related by `rel`. */
  ghost predicate Pairwise<T>(s: seq<T>, rel: (T, T) -> bool) {
    forall i, j :: 0 <= i < j < |s| ==> rel(s[i], s[j])
  }

  /** A filtered sequence keeps every pairwise relation of the original. */
  lemma {:induction false} FilterKeepsPairwise<T(!new)>(s: seq<T>, p: T -> bool, rel: (T, T) -> bool)
    requires Pairwise(s, rel)
    ensures Pairwise(Filter(s, p), rel)
  {
    if |s| > 0 {
      FilterKeepsPairwise(s[1..], p, rel);
      var rest := Filter(s[1..], p);
      if p(s[0]) {
        var r := [s[0]] + rest;
        forall i, j | 0 <= i < j < |r|
          ensures rel(r[i], r[j])
        {
          if i == 0 {
            assert r[j] in s[1..];
            var k :| 0 <= k < |s[1..]| && s[1..][k] == r[j];
            assert s[1 + k] == r[j];
          } else {
            assert r[i] == rest[i - 1] && r[j] == rest[j - 1];
          }
        }
      }
    }
  }

  /** Appending `x` keeps a pairwise relation when every element already present relates to `x`. */
  lemma PairwiseSnoc<T>(s: seq<T>, x: T, rel: (T, T) -> bool)
    requires Pairwise(s, rel)
    requires forall i :: 0 <= i < |s| ==> rel(s[i], x)
    ensures Pairwise(s + [x], rel)
  {
  }
}

=== FILE: session.dfy ===
/** The front end's session: the signed-in user and the two browser-storage entries that let a
    reload restore them. The server's reply is an input; the user's JSON form is a pair of
    function parameters (`JSON.stringify` and `JSON.parse`). */
module Session {
  import opened Wrappers
  import opened Types

  /** Browser storage: string keys to string values. */
  type Storage = map<string, string>

  const TokenKey := "authToken"
  const UserKey := "userData"

  datatype SessionState = SessionState(user: Option<User>, isAuthenticated: bool, storage: Storage)

  /** A stored value is truthy when present and non-empty. */
  predicate Truthy(storage: Storage, key: string) {
    key in storage && storage[key] != ""
  }

  /** The effect run once on mount: the session is restored when both entries are truthy,
      otherwise nobody is signed in. */
  function Bootstrap(storage: Storage, decode: string -> User): (s: SessionState)
    ensures s.storage == storage
    ensures s.isAuthenticated <==> Truthy(storage, TokenKey) && Truthy(storage, UserKey)
    ensures s.isAuthenticated ==> s.user == Some(decode(storage[UserKey]))
    ensures !s.isAuthenticated ==> s.user.None?
  {
    if Truthy(storage, TokenKey) && Truthy(storage, UserKey) then
      SessionState(Some(decode(storage[UserKey])), true, storage)
    else
      SessionState(None, false, storage)
  }

  /** What `fetch` and `response.json()` yield: a rejection, a body with `success` false, or a
      successful body with its token and user. */
  datatype AuthReply = Thrown | Unsuccessful(message: string) | Succeeded(token: string, user: User)

  datatype AuthOutcome = AuthOutcome(ok: bool, session: SessionState)

  /** `after` has `u` signed in, the token and the user's JSON stored under their keys, and every
      other stored entry as it was `before`. */
  predicate SignedIn(before: SessionState, after: SessionState, token: string, u: User, encode: User -> string) {
    && after.user == Some(u) && after.isAuthenticated
    && after.storage.Keys == before.storage.Keys + {TokenKey, UserKey}
    && after.storage[TokenKey] == token
    && after.storage[UserKey] == encode(u)
    && forall k :: k in before.storage && k != TokenKey && k != UserKey ==> after.storage[k] == before.storage[k]
  }

  /** The shared tail of `login` and `register`: on success, store the token and the user's JSON
      and sign the user in; otherwise change nothing and resolve to false. */
  function Authenticate(s: SessionState, reply: AuthReply, encode: User -> string): (r: AuthOutcome)
    ensures r.ok <==> reply.Succeeded?
    ensures !r.ok ==> r.session == s
    ensures r.ok ==> SignedIn(s, r.session, reply.token, reply.user, encode)
  {
    match reply
    case Succeeded(token, u) =>
      AuthOutcome(true, SessionState(Some(u), true, s.storage[TokenKey := token][UserKey := encode(u)]))
    case _ => AuthOutcome(false, s)
  }

  /** `login(email, password)`; the credentials only reach the server. */
  function Login(s: SessionState, reply: AuthReply, encode: User -> string): (r: AuthOutcome)
    ensures r.ok <==> reply.Succeeded?
    ensures !r.ok ==> r.session == s
    ensures r.ok ==> SignedIn(s, r.session, reply.token, reply.user, encode)
  {
    Authenticate(s, reply, encode)
  }

  /** `register(userData)`: the same effect as a login. */
  function Register(s: SessionState, reply: AuthReply, encode: User -> string): (r: AuthOutcome)
    ensures r == Login(s, reply, encode)
    ensures r.ok <==> reply.Succeeded?
    ensures !r.ok ==> r.session == s
    ensures r.ok ==> SignedIn(s, r.session, reply.token, reply.user, encode)
  {
    Authenticate(s, reply, encode)
  }

  /** `logout()`: signs out and removes exactly the two entries. */
  function Logout(s: SessionState): (s': SessionState)
    ensures s'.user.None? && !s'.isAuthenticated
    ensures TokenKey !in s'.storage && UserKey !in s'.storage
    ensures forall k :: k != TokenKey && k != UserKey ==>
      (k in s'.storage <==> k in s.storage) && (k in s.storage ==> s'.storage[k] == s.storage[k])
  {
    SessionState(None, false, s.storage - {TokenKey, UserKey})
  }

  lemma LogoutIsIdempotent(s: SessionState)
    ensures Logout(Logout(s)) == Logout(s)
  {
  }

  /** After a logout, a reload finds nobody signed in. */
  lemma ReloadAfterLogoutIsSignedOut(s: SessionState, decode: string -> User)
    ensures Bootstrap(Logout(s).storage, decode).user.None?
  {
  }

  /** After a successful login, a reload restores the same user, provided the token is non-empty
      and the user's JSON is non-empty and parses back to the user. */
  lemma ReloadAfterLoginRestoresUser(s: SessionState, token: string, u: User,
                                     encode: User -> string, decode: string -> User)
    requires token != "" && encode(u) != "" && decode(encode(u)) == u
    ensures var after := Login(s, Succeeded(token, u), encode).session;
      Bootstrap(after.storage, decode) == after
  {
  }

  /** An empty token is stored but not restored: the reload finds nobody signed in. */
  lemma EmptyTokenIsNotRestored(s: SessionState, u: User, encode: User -> string, decode: string -> User)
    ensures var after := Login(s, Succeeded("", u), encode).session;
      after.isAuthenticated && !Bootstrap(after.storage, decode).isAuthenticated
  {
  }
}

=== FILE: sorting.dfy ===
/** A stable sort on an integer key, largest key first: what `Array.prototype.sort` does with a
    comparator `(a, b) => key(b) - key(a)` (the sort has been stable since ES2019). */
module Sorting {
  import opened Seqs

  predicate Descending<T>(s: seq<T>, key: T -> int) {
    forall i, j :: 0 <= i < j < |s| ==> key(s[i]) >= key(s[j])
  }

  /** Places `x` before the first element whose key is not larger than its own. */
  function InsertDesc<T>(x: T, s: seq<T>, key: T -> int): (r: seq<T>)
    ensures multiset(r) == multiset(s) + multiset{x}
    ensures |r| == |s| + 1
  {
    if |s| == 0 || key(s[0]) <= key(x) then [x] + s
    else
      assert s == [s[0]] + s[1..];
      [s[0]] + InsertDesc(x, s[1..], key)
  }

  /** Every element of the insertion result is `x` or an element of `s`. */
  lemma InsertDescElements<T>(x: T, s: seq<T>, key: T -> int, k: nat)
    requires k < |InsertDesc(x, s, key)|
    ensures InsertDesc(x, s, key)[k] == x || InsertDesc(x, s, key)[k] in s
  {
    var r := InsertDesc(x, s, key);
    assert r[k] in multiset(r);
  }

  lemma {:induction false} InsertDescKeepsOrder<T>(x: T, s: seq<T>, key: T -> int)
    requires Descending(s, key)
    ensures Descending(InsertDesc(x, s, key), key)
  {
    if |s| > 0 && key(s[0]) > key(x) {
      var rest := InsertDesc(x, s[1..], key);
      InsertDescKeepsOrder(x, s[1..], key);
      forall k | 0 <= k < |rest| ensures key(rest[k]) <= key(s[0]) {
        InsertDescElements(x, s[1..], key, k);
      }
      assert InsertDesc(x, s, key) == [s[0]] + rest;
    }
  }

  /** Insertion sort, largest key first. */
  function SortDesc<T>(s: seq<T>, key: T -> int): (r: seq<T>)
    ensures Descending(r, key)
    ensures multiset(r) == multiset(s)
    ensures |r| == |s|
  {
    if |s| == 0 then []
    else
      assert s == [s[0]] + s[1..];
      InsertDescKeepsOrder(s[0], SortDesc(s[1..], key), key);
      InsertDesc(s[0], SortDesc(s[1..], key), key)
  }

  function HasKey<T>(key: T -> int, n: int): T -> bool {
    x => key(x) == n
  }

  lemma {:induction false} InsertDescIsStable<T(!new)>(x: T, s: seq<T>, key: T -> int, n: int)
    ensures Filter(InsertDesc(x, s, key), HasKey(key, n)) ==
      (if key(x) == n then [x] + Filter(s, HasKey(key, n)) else Filter(s, HasKey(key, n)))
  {
    var p := HasKey(key, n);
    if |s| == 0 || key(s[0]) <= key(x) {
      assert InsertDesc(x, s, key) == [x] + s;
      FilterAppend([x], s, p);
      FilterSingleton(x, p);
    } else {
      InsertDescIsStable(x, s[1..], key, n);
      InsertDescIsStableStep(x, s, key, n);
    }
  }

  /** The inductive step: `x` is inserted behind the head, whose key is larger than `x`'s. */
  lemma InsertDescIsStableStep<T(!new)>(x: T, s: seq<T>, key: T -> int, n: int)
    requires |s| > 0 && key(s[0]) > key(x)
    requires Filter(InsertDesc(x, s[1..], key), HasKey(key, n)) ==
      (if key(x) == n then [x] + Filter(s[1..], HasKey(key, n)) else Filter(s[1..], HasKey(key, n)))
    ensures Filter(InsertDesc(x, s, key), HasKey(key, n)) ==
      (if key(x) == n then [x] + Filter(s, HasKey(key, n)) else Filter(s, HasKey(key, n)))
  {
    var p := HasKey(key, n);
    var rest := InsertDesc(x, s[1..], key);
    assert InsertDesc(x, s, key) == [s[0]] + rest;
    FilterCons(s[0], rest, p);
    if p(s[0]) {
      assert key(x) != n;
    }
  }

  /** The sort is stable: the elements with any one key keep their order. Together with
      `Descending` this determines the sorted sequence. */
  lemma {:induction false} SortDescIsStable<T(!new)>(s: seq<T>, key: T -> int, n: int)
    ensures Filter(SortDesc(s, key), HasKey(key, n)) == Filter(s, HasKey(key, n))
  {
    if |s| > 0 {
      SortDescIsStable(s[1..], key, n);
      InsertDescIsStable(s[0], SortDesc(s[1..], key), key, n);
    }
  }

  /** Sorting keeps exactly the elements it was given. */
  lemma SortDescKeepsElements<T>(s: seq<T>, key: T -> int)
    ensures forall x :: x in SortDesc(s, key) <==> x in s
  {
    var r := SortDesc(s, key);
    forall x ensures x in r <==> x in s {
      assert x in r <==> x in multiset(r);
      assert x in s <==> x in multiset(s);
    }
  }
}

=== FILE: types.dfy ===
/** The records the application keeps: users, attendance records and leave requests, with the
    closed string enumerations of the front end's type declarations. */
module Types {
  import opened Wrappers
  import opened Calendar

  type UserId = string
  type RecordId = string

  /** Milliseconds since the epoch (what `new Date().toISOString()` stands for). */
  type Instant = int

  /** Hours held in hundredths, the two decimals `Math.round(h * 100) / 100` keeps. */
  type Hundredths = int

  datatype Role = Employee | Admin {
    function Name(): string {
      match this
      case Employee => "employee"
      case Admin => "admin"
    }
  }

  datatype User = User(id: UserId, email: string, name: string, role: Role,
                       department: Option<string>, joinDate: string)

  /** `user?.id || ''`: the id a page acts for. */
  function ActiveId(user: Option<User>): (id: UserId)
    ensures user.None? ==> id == ""
    ensures user.Some? ==> id == user.value.id
  {
    if user.Some? then user.value.id else ""
  }

  predicate IsAdmin(user: Option<User>) {
    user.Some? && user.value.role == Admin
  }

  datatype AttendanceStatus = Present | Absent | Late | HalfDay {
    function Name(): string {
      match this
      case Present => "present"
      case Absent => "absent"
      case Late => "late"
      case HalfDay => "half-day"
    }
  }

  datatype AttendanceRecord = AttendanceRecord(
    id: RecordId,
    userId: UserId,
    clockIn: Option<Instant>,
    clockOut: Option<Instant>,
    date: Date,
    totalHours: Option<Hundredths>,
    status: AttendanceStatus)

  datatype LeaveType = Sick | Casual | Annual | Maternity | Emergency {
    function Name(): string {
      match this
      case Sick => "sick"
      case Casual => "casual"
      case Annual => "annual"
      case Maternity => "maternity"
      case Emergency => "emergency"
    }
  }

  datatype LeaveStatus = Pending | Approved | Rejected {
    function Name(): string {
      match this
      case Pending => "pending"
      case Approved => "approved"
      case Rejected => "rejected"
    }
  }

  datatype LeaveRequest = LeaveRequest(
    id: RecordId,
    userId: UserId,
    kind: LeaveType,
    startDate: Date,
    endDate: Date,
    reason: string,
    status: LeaveStatus,
    appliedDate: Instant,
    approvedBy: Option<UserId>,
    approvedDate: Option<Instant>)

  // ---------------------------------------------------------------------------------------
  // The string unions of the type declarations: each literal names exactly one constructor,
  // and no other string names any. The parsers define the unions from the string side; the rest
  // of the model works on the constructors, since stored JSON is decoded by a parameter.

  function ParseRole(s: string): (r: Option<Role>)
    ensures r.Some? ==> r.value.Name() == s
    ensures (exists x: Role :: x.Name() == s) ==> r.Some?
  {
    if s == "employee" then Some(Employee)
    else if s == "admin" then Some(Admin)
    else None
  }

  function ParseAttendanceStatus(s: string): (r: Option<AttendanceStatus>)
    ensures r.Some? ==> r.value.Name() == s
    ensures (exists x: AttendanceStatus :: x.Name() == s) ==> r.Some?
  {
    if s == "present" then Some(Present)
    else if s == "absent" then Some(Absent)
    else if s == "late" then Some(Late)
    else if s == "half-day" then Some(HalfDay)
    else None
  }

  function ParseLeaveType(s: string): (r: Option<LeaveType>)
    ensures r.Some? ==> r.value.Name() == s
    ensures (exists x: LeaveType :: x.Name() == s) ==> r.Some?
  {
    if s == "sick" then Some(Sick)
    else if s == "casual" then Some(Casual)
    else if s == "annual" then Some(Annual)
    else if s == "maternity" then Some(Maternity)
    else if s == "emergency" then Some(Emergency)
    else None
  }

  function ParseLeaveStatus(s: string): (r: Option<LeaveStatus>)
    ensures r.Some? ==> r.value.Name() == s
    ensures (exists x: LeaveStatus :: x.Name() == s) ==> r.Some?
  {
    if s == "pending" then Some(Pending)
    else if s == "approved" then Some(Approved)
    else if s == "rejected" then Some(Rejected)
    else None
  }

  /** Each enumeration's names are distinct, so a stored string decodes back to the value that
      was stored. */
  lemma EnumerationsRoundTrip(r: Role, a: AttendanceStatus, t: LeaveType, s: LeaveStatus)
    ensures ParseRole(r.Name()) == Some(r)
    ensures ParseAttendanceStatus(a.Name()) == Some(a)
    ensures ParseLeaveType(t.Name()) == Some(t)
    ensures ParseLeaveStatus(s.Name()) == Some(s)
  {
  }
}

=== FILE: user_routes.dfy ===
/** The server's `/me` and `/profile` handlers. The caller's id is what the authentication
    middleware (its own file, not part of this model) puts on the request. */
module UserRoutes {
  import opened Wrappers
  import opened UserStore

  const UserNotFound := "User not found"
  const InvalidUpdates := "Invalid updates!"

  /** The keys a profile update may carry. */
  const AllowedUpdates: set<string> := {"name", "email"}

  /** `GET /me`: the user without the password, or 404. */
  function Me(store: Store, userId: string): (r: Reply)
    ensures FindById(store, userId).None? ==> r == Reply(404, Failure(UserNotFound))
    ensures FindById(store, userId).Some? ==>
      r.status == 200 && r.body.UserBody? && r.body.user == WithoutPassword(store[FindById(store, userId).value])
  {
    match FindById(store, userId)
    case None => Reply(404, Failure(UserNotFound))
    case Some(i) => Reply(200, UserBody(WithoutPassword(store[i])))
  }

  /** The request body of a profile update: its keys and (string) values. */
  type UpdateBody = map<string, string>

  /** `updates.every(update => allowedUpdates.includes(update))`; true of an empty body. */
  function IsValidOperation(body: UpdateBody): (b: bool)
    ensures b <==> forall k :: k in body ==> k == "name" || k == "email"
  {
    body.Keys <= AllowedUpdates
  }

  /** The user with the supplied fields replaced. */
  function Updated(u: StoredUser, body: UpdateBody): StoredUser {
    u.(name := if "name" in body then body["name"] else u.name,
       email := if "email" in body then body["email"] else u.email)
  }

  datatype RouteResult = RouteResult(store: Store, reply: Reply)

  /** `PATCH /profile`. A key outside the whitelist is refused before anything is looked up; an
      error the update throws (a failing validator, say) is answered with 400 and its message; a
      missing user with 404. On success the reply carries the whole updated document. */
  function UpdateProfile(store: Store, userId: string, body: UpdateBody, updateError: Option<string>)
    : (r: RouteResult)
    ensures !IsValidOperation(body) ==> r == RouteResult(store, Reply(400, Failure(InvalidUpdates)))
    ensures IsValidOperation(body) && updateError.Some? ==>
      r == RouteResult(store, Reply(400, Failure(updateError.value)))
    ensures IsValidOperation(body) && updateError.None? && FindById(store, userId).None? ==>
      r == RouteResult(store, Reply(404, Failure(UserNotFound)))
    ensures r.reply.status == 200 <==>
      IsValidOperation(body) && updateError.None? && FindById(store, userId).Some?
    ensures r.reply.status != 200 ==> r.store == store
  {
    if !IsValidOperation(body) then RouteResult(store, Reply(400, Failure(InvalidUpdates)))
    else if updateError.Some? then RouteResult(store, Reply(400, Failure(updateError.value)))
    else
      match FindById(store, userId)
      case None => RouteResult(store, Reply(404, Failure(UserNotFound)))
      case Some(i) =>
        var u := Updated(store[i], body);
        RouteResult(store[i := u], Reply(200, FullUserBody(u)))
  }

  /** A successful update changes only the caller's name and email, and only those supplied;
      every other user and every other field is kept. The reply is the updated document, password
      included (`user.toObject()`). */
  lemma UpdateChangesOnlySuppliedFields(store: Store, userId: string, body: UpdateBody)
    requires IsValidOperation(body) && FindById(store, userId).Some?
    ensures var i := FindById(store, userId).value;
      var r := UpdateProfile(store, userId, body, None);
      && |r.store| == |store|
      && (forall j :: 0 <= j < |store| && j != i ==> r.store[j] == store[j])
      && r.store[i].id == store[i].id && r.store[i].password == store[i].password
      && r.store[i].role == store[i].role && r.store[i].department == store[i].department
      && r.store[i].joinDate == store[i].joinDate
      && r.store[i].name == (if "name" in body then body["name"] else store[i].name)
      && r.store[i].email == (if "email" in body then body["email"] else store[i].email)
      && r.reply.body == FullUserBody(r.store[i])
  {
  }

  /** An empty body is a valid update that changes nothing. */
  lemma EmptyUpdateKeepsStore(store: Store, userId: string)
    requires FindById(store, userId).Some?
    ensures var r := UpdateProfile(store, userId, map[], None);
      r.reply.status == 200 && r.store == store
  {
    var i := FindById(store, userId).value;
    assert Updated(store[i], map[]) == store[i];
  }

  /** After a successful update, `/me` shows the new name and email and still no password. */
  lemma MeSeesUpdate(store: Store, userId: string, body: UpdateBody)
    requires IsValidOperation(body) && FindById(store, userId).Some?
    ensures var r := UpdateProfile(store, userId, body, None);
      var i := FindById(store, userId).value;
      Me(r.store, userId) == Reply(200, UserBody(WithoutPassword(r.store[i])))
  {
    var i := FindById(store, userId).value;
    var r := UpdateProfile(store, userId, body, None);
    assert FindById(r.store, userId) == Some(i) by {
      assert r.store[i].id == userId;
      assert forall j :: 0 <= j < i ==> r.store[j] == store[j];
    }
  }
}

=== FILE: user_store.dfy ===
/** The server's user collection as the two route files use it: look-ups by email and by id, and
    the replies' projections of a stored user. The collection's schema (its own file) is not part
    of this model; a stored user here carries the fields the routes read and write. */
module UserStore {
  import opened Wrappers
  import opened Seqs

  datatype StoredUser = StoredUser(id: string, name: string, email: string, password: string,
                                   role: string, department: string, joinDate: string)

  type Store = seq<StoredUser>

  /** `User.findOne({ email })`: the first user with the email. */
  function FindByEmail(store: Store, email: string): (r: Option<nat>)
    ensures r.Some? ==> r.value < |store| && store[r.value].email == email
    ensures r.Some? ==> forall j :: 0 <= j < r.value ==> store[j].email != email
    ensures r.None? <==> forall j :: 0 <= j < |store| ==> store[j].email != email
  {
    FindFirst(store, (u: StoredUser) => u.email == email)
  }

  /** `User.findById(id)`: the first user with the id. */
  function FindById(store: Store, id: string): (r: Option<nat>)
    ensures r.Some? ==> r.value < |store| && store[r.value].id == id
    ensures r.Some? ==> forall j :: 0 <= j < r.value ==> store[j].id != id
    ensures r.None? <==> forall j :: 0 <= j < |store| ==> store[j].id != id
  {
    FindFirst(store, (u: StoredUser) => u.id == id)
  }

  function DistinctEmails(): (StoredUser, StoredUser) -> bool {
    (a: StoredUser, b: StoredUser) => a.email != b.email
  }

  function DistinctUserIds(): (StoredUser, StoredUser) -> bool {
    (a: StoredUser, b: StoredUser) => a.id != b.id
  }

  /** No two users share an email. */
  ghost predicate EmailsUnique(store: Store) {
    Pairwise(store, DistinctEmails())
  }

  /** No two users share an id. */
  ghost predicate IdsUnique(store: Store) {
    Pairwise(store, DistinctUserIds())
  }

  /** A user as `/me` returns it: `select('-password')`. */
  datatype PublicUser = PublicUser(id: string, name: string, email: string, role: string,
                                   department: string, joinDate: string)

  function WithoutPassword(u: StoredUser): (p: PublicUser)
    ensures p.id == u.id && p.name == u.name && p.email == u.email && p.role == u.role
    ensures p.department == u.department && p.joinDate == u.joinDate
  {
    PublicUser(u.id, u.name, u.email, u.role, u.department, u.joinDate)
  }

  /** The server's JSON replies: a status code and a body. */
  datatype Body =
    | Failure(message: string)
    | WithToken(token: string, user: PublicUser)
    | LoginBody(token: string, id: string, name: string, email: string, role: string)
    | UserBody(user: PublicUser)
    | FullUserBody(record: StoredUser)

  datatype Reply = Reply(status: int, body: Body) {
    /** The body's `success` field. */
    predicate Success() {
      !body.Failure?
    }
  }

  /** The outcome of `jwt.sign`: a token, or the error it throws. */
  datatype Signing = Signed(token: string) | SignFailed(message: string)
}

=== FILE: wrappers.dfy ===
/** The optional-value datatype used wherever the source has an optional field,
    a `find` that may come back empty, or a nullable value. */
module Wrappers {

  datatype Option<+T> = None | Some(value: T) {

    /** The wrapped value, or `default` when there is none (JavaScript's `x || default`
        for values that are never falsy when present). */
    function GetOr(default: T): T {
      match this
      case Some(v) => v
      case None => default
    }
  }
}
